=== FILE: README.md ===
# Lending client: transaction pipeline and selection rules

This project models the decision logic of a TypeScript client for an on-chain
margin-lending and spot-trading program. Most of the client is RPC plumbing;
what is modelled here is the logic in between:

- **Failure diagnosis** (`sendSignedTransaction`). A timeout becomes a fixed
  message and nothing is simulated. Any other rejection is simulated, and the
  last `"Program log: "` line is reported. If there is none, the JSON of the
  simulated error is reported, and otherwise `"Transaction failed"`.
- **Confirmation tracking** (`awaitTransactionSignatureConfirmation`). This is
  a state machine over a trace of events: timer, signature notification,
  poll result and failed poll. The state is `done`, the subscription, and the
  settled value of the promise. Promise semantics are kept: only the first
  settlement counts.
- **Rebroadcast** (`sendSignedTransaction`). A loop tick resends the same
  serialized bytes while the sender's own `done` flag is clear. That flag is
  set in the `finally`, that is when the send returns or throws. This happens
  at once when the wait resolves or times out. After an on-chain rejection it
  happens only once the awaited simulation has come back, so ticks in between
  still resend.
- **Signing** (`signTransaction`, `signTransactions`). The signers are the
  wallet first, then the extra keypairs in call order. Partial signing
  happens only when there are extra signers. The batch variant stamps one
  blockhash on every transaction.
- **Settlement planning** (`settleAll`, `settleAllTrades`). The model decides
  which markets get SettleFunds, how `assetGains` accumulates, and which
  tokens get SettleBorrow. An empty plan is refused with "No unsettled funds".
- **Order placement** (`placeAndSettle`). The model covers the size and price
  checks and the rebuilt open-orders key list: only the market's zero-key
  slot is replaced by the new account. The pre-settle instruction is added
  only when that slot is already filled.
- **Client object** (`MangoBorrowLending`). The model covers margin-account
  choice, the init-or-deposit branch, the early exit of `repay`, and the
  `activeWallets` / `missingTokens` computation of `getTokensInWallet`.
- **Other pieces.** `getSymbolForTokenMintAddress`, and the positional
  account lists of the hand-built instructions, where the wallet is the only
  signer.

Network results (blockhash, transaction id, simulation result, signature
statuses, account lookups, the token table, the new account's key) are inputs.
The wallet's own signature is external: the signing functions return the
transaction as it is handed to the wallet. BN amounts are read with
`toNumber()` and are modelled as integers. The `deposits` and `liabs` of the
settlement plan are plain numbers that the code only compares with zero, so
integers decide the same way. `NUM_MARKETS` is a parameter, and
`NUM_TOKENS` is `NUM_MARKETS + 1`, the last token being the quote currency.

Notes on the code:

- A poll status is confirmed by a nonzero `confirmations` or a
  `'confirmed'`/`'finalized'` status. The threshold is fixed in the code.
- A timed-out send throws at once, without any simulation.
- When the simulation has an `err` but no program-log line, the message is
  the JSON of that `err`. The generic text is used only when there is no
  simulated `err`.
- The confirmation wait can fail to end. See Findings.

Modules: `Common` (Option/Result, keys, prefix and filter helpers),
`Diagnosis`, `Confirmation`, `Broadcast`, `Signing`, `Settlement`,
`PlaceOrder`, `AccountMetas`, `Mints`, `LendingClient`.

## Model

| member | source | states |
|---|---|---|
| Diagnosis.Diagnose | src/utils.ts:1657-1688 | A timeout throws "Timed out awaiting confirmation on transaction" and is the only rejection that does not simulate. Any other rejection throws a transaction error carrying the txid; `TransactionError` itself is not defined in this code and is modelled as that error value. Its message is "Transaction failed: " plus the text after the prefix of the last program-log line. Failing that, it is the JSON of the simulated error when the simulation reported one. Otherwise it is "Transaction failed". |
| Diagnosis.LastProgramLog | src/utils.ts:1673-1681 | Returns the position of a program-log line after which no line is a program log. It returns nothing exactly when no line is a program log. |
| Diagnosis.ScanLogsBackward | src/utils.ts:1672-1682 | The backwards loop over the logs finds the same line as the last-program-log characterization. |
| Diagnosis.TimeoutIgnoresSimulation | src/utils.ts:1660-1662 | A timeout is diagnosed identically whatever the simulation would return, and without simulating. |
| Diagnosis.LastLogReasonIsReported | src/utils.ts:1671-1681 | Round trip: if the simulation logged "Program log: " + reason and only non-program-log lines after it, the error message is "Transaction failed: " + reason. |
| Common.Filter | src/mango-object.ts:184-186 | `filter` keeps exactly the elements satisfying the predicate, and never lengthens the list. |
| Common.FilterAppend | src/mango-object.ts:193-195 | `filter` distributes over concatenation, so it preserves relative order. |
| Confirmation.FirstStatus | src/utils.ts:1734-1737 | The polled status is the first array entry. It is absent for a null response, an empty array or a null entry. |
| Confirmation.Classify | src/utils.ts:1737-1759 | A null status is pending, and a status with `err` fails with that error. A status is confirmed if and only if it has no `err` and has nonzero confirmations or a 'confirmed'/'finalized' level. Anything else is pending. |
| Confirmation.Init | src/utils.ts:1711-1729 | As written, a successful set-up registers the callback with `done` clear, and a throwing one sets `done` with no callback. So the set-up state has `done` exactly when settled iff the set-up succeeded. |
| Confirmation.InitCorrected | src/utils.ts:1726-1729 | Corrected set-up: `done` stays clear whether or not the callback could be registered, so `done` holds exactly when settled from the start. |
| Confirmation.Step | src/utils.ts:1703-1768 | Settled values and `done` never revert. The timer and poll results are no-ops once `done` is set. A failed poll request, and an absent or pending poll status, are always no-ops. Settling always sets `done`. The timer rejects with the timeout marker when nothing has settled. A notification does nothing without a registered callback; otherwise it settles with its error, or resolves with its result. A poll result while `done` is clear rejects with the status's error and resolves with a confirmed status. |
| Confirmation.RunAppend | src/utils.ts:1700-1770 | Processing two traces one after the other equals processing their concatenation. |
| Confirmation.SettledIsFinal | src/utils.ts:1700-1721 | Once the wait has settled, no later events change the outcome. |
| Confirmation.DoneIsFinal | src/utils.ts:1703-1757 | Once `done` is set, it stays set over any trace. |
| Confirmation.FirstSettlementWins | src/utils.ts:1703-1759 | The first event that settles the wait determines the outcome, whatever events follow. |
| Confirmation.RunKeepsConsistent | src/utils.ts:1703-1759 | Over any trace, a settled wait always has `done` set. |
| Confirmation.RunKeepsDoneMeansSettled | src/utils.ts:1703-1759 | When `done` is set only together with a settlement, that stays so over any trace. |
| Confirmation.TimerSettles | src/utils.ts:1703-1710 | From a state where `done` means settled, any trace containing the timer event ends settled. |
| Confirmation.SubscribedWaitSettles | src/utils.ts:1703-1729 | As written, with the subscription set up, every trace in which the timer fires ends settled. |
| Confirmation.CorrectedWaitAlwaysSettles | src/utils.ts:1703-1729 | With the corrected set-up, every trace in which the timer fires ends settled, whether or not set-up succeeded. |
| Confirmation.SetupFailureNeverSettles | src/utils.ts:1726-1730 | As written, after a throwing subscription set-up no trace of events ever settles the wait. |
| Confirmation.StuckStaysStuck | src/utils.ts:1703-1738 | A state with `done` set, no callback and nothing settled is left unchanged by every event. |
| Confirmation.SetupFailureTimerIsIgnored | src/utils.ts:1703-1729 | Concrete witness: after a failed set-up, the timer firing leaves the wait unsettled as written. With the corrected set-up, it rejects with the timeout marker. |
| Broadcast.SendStep | src/utils.ts:1648-1688 | A loop tick appends the same raw bytes only while `done` is clear, and `done` never clears. A wait event advances the confirmation wait and submits nothing. A simulation result is recorded, and ends the send, only after an on-chain rejection whose simulation is still awaited; otherwise it changes nothing. |
| Broadcast.SendRunKeepsValid | src/utils.ts:1637-1688 | Over any trace, every submission is the serialized payload, and a simulation exists only after an on-chain rejection. The loop has stopped exactly when the send has returned or thrown: the wait resolved or timed out, or it was rejected on chain and the simulation has come back. The wait's state is that of the wait events alone. |
| Broadcast.EverySubmissionIsTheSamePayload | src/utils.ts:1637-1656 | Every payload ever submitted, first or rebroadcast, equals the one serialized payload. |
| Broadcast.LoopStopsForGood | src/utils.ts:1648-1688 | Once the loop's `done` is set, it stays set and nothing more is submitted over any trace. |
| Broadcast.ResendsUntilTheSendEnds | src/utils.ts:1649-1667 | As long as the send has neither returned nor thrown, including while the simulation is awaited, each loop tick submits exactly once more. |
| Broadcast.EndedIsFinal | src/utils.ts:1657-1688 | Once the send has returned or thrown, no later event changes the wait's outcome or the simulation the error was built from. |
| Broadcast.RebroadcastsWhileSimulating | src/utils.ts:1650-1667 | Concrete witness: after an on-chain rejection by notification, a loop tick before the simulation returns submits again and the send is still pending. Once the simulation has returned, the send throws its diagnosis and a further tick submits nothing. |
| Broadcast.DiagnosisUsesReturnedSimulation | src/utils.ts:1663-1685 | After an on-chain rejection, the error thrown is the diagnosis of that rejection with the first simulation result that comes back, whatever events follow. |
| Broadcast.Submit | src/utils.ts:1657-1691 | The send is pending exactly while the rebroadcast loop still runs, and always while the wait is unsettled. It returns the first submission's txid iff the wait resolved. A timed-out wait throws the timeout error. It throws only after a rejection. |
| Broadcast.TimeoutIsNotSimulated | src/utils.ts:1659-1662 | A send whose wait timed out throws the timeout error, and a simulation result arriving later changes nothing, because none was asked for. |
| Broadcast.SendSignedTransaction | src/utils.ts:1624-1692 | As written, the send is pending exactly while its loop still runs. After a failed subscription set-up it is pending on every trace. A timed-out wait throws the timeout error. |
| Broadcast.SendSignedTransactionCorrected | src/utils.ts:1624-1692 | With the corrected set-up, the send is pending exactly while its loop still runs. Once the timer has fired, a pending send is only awaiting the simulation of an on-chain rejection. |
| Broadcast.SetupFailureHangsAndRebroadcasts | src/utils.ts:1648-1658 | As written, after a failed subscription set-up the send never returns or throws, and every loop tick resubmits the payload. |
| Broadcast.CorrectedSendEnds | src/utils.ts:1648-1688 | With the corrected set-up, a send whose timer has fired has ended at the latest when a simulation result comes back, and from then on nothing more is submitted. |
| Broadcast.SendRunAppend | src/utils.ts:1648-1688 | Processing two send traces one after the other equals processing their concatenation. |
| Signing.SignTransaction | src/utils.ts:1575-1594 | The transaction handed to the wallet keeps its instructions and carries the fetched blockhash. Its signers are the wallet followed by the extra signers' keys in call order. It is partially signed, by exactly those extra keys, iff there is at least one extra signer. |
| Signing.SignTransactions | src/utils.ts:1596-1622 | The batch has one entry per input, each prepared exactly as the single-transaction path prepares it (omitted signers count as none). Every entry carries the same blockhash. |
| Settlement.MarketsToSettle | src/utils.ts:1314-1325 | Market i is settled iff i is below the market count and its open-orders account exists with nonzero free quote (plus rebates in `settleAll`) or free base. Markets come in increasing order. |
| Settlement.AccumulateGains | src/utils.ts:1312-1330 | `assetGains` has one entry per token. A settled market's own token gains its free base. Unsettled markets and untouched tokens stay zero. The quote token accumulates the free quote of all settled markets. |
| Settlement.TokensToSettle | src/utils.ts:1387-1393 | Token t gets SettleBorrow iff deposits[t] + assetGains[t] is nonzero and liabs[t] is nonzero. Tokens come in increasing order. |
| Settlement.SettleAllInstructions | src/utils.ts:1314-1413 | The plan holds SettleFunds exactly for the markets with free funds, each once and in increasing market order, then SettleBorrow exactly for the tokens with a borrow to settle, each once and in increasing token order. No SettleFunds follows a SettleBorrow. |
| Settlement.NoMarketsIff | src/utils.ts:1314-1325 | No market is settled iff no market below the count has free funds. |
| Settlement.NoTokensIff | src/utils.ts:1387-1393 | No borrow is settled iff no token below the count qualifies. |
| Settlement.NoFundsMeansNoGains | src/utils.ts:1312-1330 | When no market has free funds, every entry of `assetGains` is zero. |
| Settlement.NoFundsNoQuoteGains | src/utils.ts:1328-1330 | When no market has free funds, the quote token gains nothing. |
| Settlement.EmptyPlanIffNothingToSettle | src/utils.ts:1415-1417 | The plan is empty iff no market has free funds and no token has both a nonzero deposit and a nonzero liability. |
| Settlement.SettleAll | src/utils.ts:1302-1426 | `settleAll` fails with "No unsettled funds" iff there is nothing to settle. Otherwise it yields the planned instructions and gains. |
| Settlement.FundsBeforeBorrows | src/utils.ts:1381-1413 | Appending the borrow instructions after the funds instructions puts every SettleFunds before every SettleBorrow. |
| Settlement.SettleAllTrades | src/utils.ts:1447-1535 | `settleAllTrades` fails with "No unsettled funds" iff no market has free quote or base, not counting rebates. Otherwise it yields SettleFunds exactly for those markets, each once and in increasing market order. |
| Settlement.SettleAllCoversSettleAllTrades | src/utils.ts:1463-1468 | Whenever `settleAllTrades` has work, `settleAll` has work too, and every market it settles is settled by `settleAll`. |
| PlaceOrder.RebuildKeys | src/utils.ts:904-933 | After the loop visits n slots, the list has n keys. Each slot keeps its key, except the market's slot, which holds the new account iff it held the zero key. |
| PlaceOrder.PlaceAndSettlePlan | src/utils.ts:879-953 | A non-positive size fails with "size too small", checked before price. A non-positive price fails with "invalid price". A missing market slot throws. Otherwise the key list is the margin account's list with a zero-key market slot replaced by the new account. The new account is then created and is the only extra signer; with a filled slot the account is pre-settled instead and there are no extra signers. The order instruction, with the rebuilt list, comes last. |
| PlaceOrder.KeysDifferOnlyAtEmptySlot | src/utils.ts:904-933 | The rebuilt list differs from the margin account's list only at the market's slot, and only when that slot held the zero key, which the new account replaces. With a filled slot it is unchanged. |
| PlaceOrder.RebuildIsIdempotent | src/utils.ts:905-932 | Rebuilding the rebuilt list again changes nothing. |
| PlaceOrder.PreSettleUsesExistingAccount | src/utils.ts:935-953 | With an existing account, the transaction is pre-settle of that account, then the order against the unchanged key list, with no extra signers. |
| AccountMetas.SoleSignerNeedsOnlyWallet | src/utils.ts:624-639 | An account list whose only signer entry is the wallet requires exactly the wallet's signature. |
| AccountMetas.BorrowKeys | src/utils.ts:624-639 | The Borrow list has 4 + open orders + oracles entries. The wallet at position 2 is the only signer. The open-orders and oracle keys follow in order, read-only. |
| AccountMetas.WithdrawKeys | src/utils.ts:425-452 | The Withdraw list has 8 + open orders + oracles entries. The wallet at position 2 is the only signer. The token account and vault are writable. The open-orders and oracle keys follow in order. |
| AccountMetas.SettleBorrowKeys | src/utils.ts:677-682 | The SettleBorrow list has four entries, and the wallet at position 2 is the only signer. |
| AccountMetas.SettleFundsKeys | src/utils.ts:1341-1372 | The SettleFunds list has fourteen entries. The wallet at position 1 is the only signer. The open-orders account and both group vaults are writable. |
| AccountMetas.PlaceAndSettleKeys | src/utils.ts:955-1009 | The PlaceAndSettle list has 19 + open orders + oracles entries. The wallet at position 1 is the only signer. The rebuilt open-orders keys follow, writable, then the oracles, read-only. |
| AccountMetas.OnlyTheWalletSigns | src/utils.ts:425-1399 | Each of the five account lists modelled here requires the wallet's signature and no other: Withdraw (425-452), Borrow (624-639), SettleBorrow (677-682 and 1394-1399), PlaceAndSettle (955-1009) and SettleFunds (1341-1372), the last for any open-orders account. |
| Mints.Find | src/utils.ts:144 | The table lookup returns the first entry with the address, and nothing iff no entry has it. |
| Mints.SymbolForMintAddress | src/utils.ts:141-149 | An empty or unknown address gives the empty symbol. A known address gives the name of its first table entry. |
| Mints.LookupOwnAddress | src/utils.ts:141-149 | In a table without repeated addresses, looking up an entry's own non-empty address returns its name. |
| LendingClient.GetMarginAccount | src/mango-object.ts:257-259 | The supplied account is returned when present. Otherwise it is the first owner account. The result is absent iff none was supplied and the owner list is missing or empty. |
| LendingClient.Deposit | src/mango-object.ts:202-232 | The init-and-deposit path is taken iff no account was supplied and the owner has none. Otherwise the deposit goes to the account `getMarginAccount` picks. Token, token account and quantity are passed on unchanged. |
| LendingClient.Repay | src/mango-object.ts:105-126 | `repay` does nothing iff the asset has no borrows. Otherwise it deposits the settle quantity into the given margin account. |
| LendingClient.GetTokensInWallet | src/mango-object.ts:163-200 | Without a native account, the group's symbol names are returned. Otherwise the first active wallet is the native entry, owned by the wallet with the lamport balance. The rest are exactly the SPL accounts whose type is a group symbol, so the list has at most one entry more than the SPL accounts; with `ActiveWalletsKeepOrder` this fixes each account once, in reported order. The missing tokens are exactly the group symbols no active wallet's mint maps to. |
| LendingClient.ActiveWalletsKeepOrder | src/mango-object.ts:173-187 | The active SPL accounts keep their reported order: splitting the input list splits the output the same way. |
| LendingClient.MissingTokensKeepOrder | src/mango-object.ts:189-195 | The missing tokens keep the group's symbol order: splitting the symbol list splits the output the same way. |
| LendingClient.NativeSymbolNeverMissing | src/mango-object.ts:173-195 | The wrapped-SOL mint's symbol is never reported missing once the wallet account exists. |

## Findings

| source | as written | input that shows it | evidently intended | confidence | as-written member | corrected member |
|---|---|---|---|---|---|---|
| src/utils.ts:1726-1730 | A throwing `onSignature` set-up sets `done` without settling. The timer then returns early and the poll loop never starts, so the wait never settles. `sendSignedTransaction` never returns, and its rebroadcast loop keeps resubmitting. | Subscription set-up throws, then the timer fires: the trace `[TimerFired]` from the failed set-up leaves the wait unsettled | A failed subscription leaves the timer and the poll loop in charge, so the wait ends by poll result or timeout | not executed; high | Confirmation.SetupFailureNeverSettles | Confirmation.CorrectedWaitAlwaysSettles |

`Broadcast.SendSignedTransaction` keeps the set-up as written, and
`Broadcast.SetupFailureHangsAndRebroadcasts` shows what follows from it.
`Broadcast.SendSignedTransactionCorrected` uses the corrected set-up, and
`Broadcast.CorrectedSendEnds` proves that every send whose timer has fired
ends, at the latest when the simulation of an on-chain rejection returns.

## Left out

- All RPC calls are inputs or events, not modelled calls. This covers blockhash fetch, raw send, `onSignature`, `getSignatureStatuses`, simulation, account and program-account queries, and rent-exemption lookups.
- The wallet's `signTransaction` / `signAllTransactions` are external. The model stops at the transaction handed to them.
- Real timers, `sleep(300)` and async interleaving are abstracted by event traces. The rebroadcast loop's time bound is not modelled: it compares seconds from `getUnixTs` against a millisecond timeout. The loop ends only through `done`.
- Broadcast.SendStep: the loop's time bound is not modelled, so a loop tick resends whenever `done` is clear, even past the time bound.
- Floating-point quantity math is left out: `uiToNative`, the borrow and withdraw roundings, lamport computation, the fee-scaled `maxQuoteQuantity`, the `liabs[i] * 2` borrow quantity, and `floorToDecimal` / `ceilToDecimal`.
- Instruction encoding, SDK instruction makers, account-layout decoding, base58 and program-address derivation are external. Instructions are identified by kind and key.
- `feeTier`/`getFeeRates`, `zeroKey`, `OpenOrders`, `capitalize`, `simulateTransaction`, `TransactionError`, `deposit` (imported by src/mango-object.ts from a module that does not export it), and the `token`/`tokenAcc` of `repay` are not defined or imported where they are used. The zero key, the new account's key, and repay's token arguments are parameters. The fee rate is left out. The simulation's result is an event of the trace, and a transaction error is the value `TransactionError(message, txid)`. Read literally, the undefined names would raise reference errors: the simulation's would be swallowed by its `catch`, every non-timeout rejection would throw a reference error instead, the `deposit` method's call to the helper would throw a type error, and `repay`'s call would throw a reference error on `token` before reaching the helper; the model gives the evident meaning.
- LendingClient.Deposit: the existing-account branch calls the undefined `deposit` helper, and neither awaits nor returns that call. The model returns the lending call the branch evidently means to make.
- LendingClient.Repay: the call that refreshes balances after the deposit is not modelled.
- Settlement.SettleAllTrades: the `assetGains` it accumulates are never used, so they are not returned.
- Signing.SignTransaction: how web3.js stores signatures is not modelled. `partialSigners` records only which keys signed locally.
- Client construction (`create`), `getBalances`, `fetchMangoGroup`, `withdraw`/`borrow` wrappers and the balance/market helpers are data loading and orchestration.
- A throwing first `sendRawTransaction` propagates out of `sendSignedTransaction` and is not modelled: the model starts from the txid it returned.

=== FILE: account_metas.dfy ===
/** The positional account lists of the lending instructions the client builds
    by hand. Each one names the wallet as its only signer. The encoded data
    is external and not modelled. */
module AccountMetas {
  import opened Common

  /** Fixed runtime addresses the lists mention. */
  datatype Sysvars = Sysvars(clock: PublicKey, rent: PublicKey, tokenProgram: PublicKey)

  /** The parts of a mango group the lists mention. */
  datatype Group = Group(
    publicKey: PublicKey,
    signerKey: PublicKey,
    vaults: seq<PublicKey>,
    oracles: seq<PublicKey>,
    srmVault: PublicKey)

  /** The parts of a spot market the lists mention. */
  datatype SpotMarket = SpotMarket(
    programId: PublicKey,
    publicKey: PublicKey,
    requestQueue: PublicKey,
    eventQueue: PublicKey,
    bids: PublicKey,
    asks: PublicKey,
    baseVault: PublicKey,
    quoteVault: PublicKey)

  function Writable(k: PublicKey): AccountMeta { AccountMeta(k, false, true) }
  function ReadOnly(k: PublicKey): AccountMeta { AccountMeta(k, false, false) }
  function Signer(k: PublicKey): AccountMeta { AccountMeta(k, true, false) }

  /** One non-signer entry per key, in order, all with the same writability. */
  function Metas(keys: seq<PublicKey>, writable: bool): seq<AccountMeta>
  {
    seq(|keys|, i requires 0 <= i < |keys| => AccountMeta(keys[i], false, writable))
  }

  /** The keys whose signature an account list demands. */
  function SignerKeys(metas: seq<AccountMeta>): set<PublicKey>
  {
    set m | m in metas && m.isSigner :: m.pubkey
  }

  /** Position `pos` holds the wallet and is the only signer entry. */
  ghost predicate SoleSigner(metas: seq<AccountMeta>, pos: nat, wallet: PublicKey)
  {
    && pos < |metas|
    && metas[pos].pubkey == wallet
    && forall j :: 0 <= j < |metas| ==> (metas[j].isSigner <==> j == pos)
  }

  /** A list with a sole signer entry demands exactly the wallet's signature. */
  lemma SoleSignerNeedsOnlyWallet(metas: seq<AccountMeta>, pos: nat, wallet: PublicKey)
    requires SoleSigner(metas, pos, wallet)
    ensures SignerKeys(metas) == {wallet}
  {
    assert metas[pos] in metas;
    forall k | k in SignerKeys(metas)
      ensures k == wallet
    {
      var m :| m in metas && m.isSigner && m.pubkey == k;
      var j :| 0 <= j < |metas| && metas[j] == m;
    }
  }

  /** `borrow` (the Borrow instruction). */
  function BorrowKeys(group: Group, marginAccount: PublicKey, wallet: PublicKey, sys: Sysvars, openOrders: seq<PublicKey>)
    : (r: seq<AccountMeta>)
    ensures |r| == 4 + |openOrders| + |group.oracles|
    ensures SoleSigner(r, 2, wallet)
    ensures r[0] == Writable(group.publicKey) && r[1] == Writable(marginAccount)
    ensures forall i :: 0 <= i < |openOrders| ==> r[4 + i] == ReadOnly(openOrders[i])
    ensures forall i :: 0 <= i < |group.oracles| ==> r[4 + |openOrders| + i] == ReadOnly(group.oracles[i])
  {
    [Writable(group.publicKey), Writable(marginAccount), Signer(wallet), ReadOnly(sys.clock)]
      + Metas(openOrders, false) + Metas(group.oracles, false)
  }

  /** `withdraw`; `tokenAccount` is the receiving account and `vault` the
      group's vault of the token. */
  function WithdrawKeys(group: Group, marginAccount: PublicKey, wallet: PublicKey, tokenAccount: PublicKey, vault: PublicKey,
                        sys: Sysvars, openOrders: seq<PublicKey>): (r: seq<AccountMeta>)
    ensures |r| == 8 + |openOrders| + |group.oracles|
    ensures SoleSigner(r, 2, wallet)
    ensures r[3] == Writable(tokenAccount) && r[4] == Writable(vault)
    ensures forall i :: 0 <= i < |openOrders| ==> r[8 + i] == ReadOnly(openOrders[i])
    ensures forall i :: 0 <= i < |group.oracles| ==> r[8 + |openOrders| + i] == ReadOnly(group.oracles[i])
  {
    [ Writable(group.publicKey), Writable(marginAccount), Signer(wallet), Writable(tokenAccount), Writable(vault),
      ReadOnly(group.signerKey), ReadOnly(sys.tokenProgram), ReadOnly(sys.clock)]
      + Metas(openOrders, false) + Metas(group.oracles, false)
  }

  /** `settleBorrow`, `settleAllBorrows` and the token loop of `settleAll`. */
  function SettleBorrowKeys(group: Group, marginAccount: PublicKey, wallet: PublicKey, sys: Sysvars): (r: seq<AccountMeta>)
    ensures |r| == 4
    ensures SoleSigner(r, 2, wallet)
    ensures r[0] == Writable(group.publicKey) && r[1] == Writable(marginAccount)
  {
    [Writable(group.publicKey), Writable(marginAccount), Signer(wallet), ReadOnly(sys.clock)]
  }

  /** The SettleFunds list of the market loop in `settleAll` and
      `settleAllTrades`; `baseVault` and `quoteVault` are the group's vaults
      of the market's token and of the quote token. */
  function SettleFundsKeys(group: Group, wallet: PublicKey, marginAccount: PublicKey, sys: Sysvars, market: SpotMarket,
                           openOrders: PublicKey, baseVault: PublicKey, quoteVault: PublicKey, dexSigner: PublicKey)
    : (r: seq<AccountMeta>)
    ensures |r| == 14
    ensures SoleSigner(r, 1, wallet)
    ensures r[6] == Writable(openOrders)
    ensures r[10] == Writable(baseVault) && r[11] == Writable(quoteVault)
  {
    [ Writable(group.publicKey), Signer(wallet), Writable(marginAccount), ReadOnly(sys.clock),
      ReadOnly(market.programId), Writable(market.publicKey), Writable(openOrders), ReadOnly(group.signerKey),
      Writable(market.baseVault), Writable(market.quoteVault), Writable(baseVault), Writable(quoteVault),
      ReadOnly(dexSigner), ReadOnly(sys.tokenProgram)]
  }

  /** The PlaceAndSettle list of `placeAndSettle`, given the rebuilt
      open-orders keys. */
  function PlaceAndSettleKeys(group: Group, wallet: PublicKey, marginAccount: PublicKey, sys: Sysvars, market: SpotMarket,
                              baseVault: PublicKey, quoteVault: PublicKey, dexSigner: PublicKey,
                              openOrdersKeys: seq<PublicKey>): (r: seq<AccountMeta>)
    ensures |r| == 19 + |openOrdersKeys| + |group.oracles|
    ensures SoleSigner(r, 1, wallet)
    ensures forall i :: 0 <= i < |openOrdersKeys| ==> r[19 + i] == Writable(openOrdersKeys[i])
    ensures forall i :: 0 <= i < |group.oracles| ==> r[19 + |openOrdersKeys| + i] == ReadOnly(group.oracles[i])
  {
    [ Writable(group.publicKey), Signer(wallet), Writable(marginAccount), ReadOnly(sys.clock),
      ReadOnly(market.programId), Writable(market.publicKey), Writable(market.requestQueue),
      Writable(market.eventQueue), Writable(market.bids), Writable(market.asks),
      Writable(baseVault), Writable(quoteVault), ReadOnly(group.signerKey),
      Writable(market.baseVault), Writable(market.quoteVault), ReadOnly(sys.tokenProgram),
      ReadOnly(sys.rent), Writable(group.srmVault), ReadOnly(dexSigner)]
      + Metas(openOrdersKeys, true) + Metas(group.oracles, false)
  }

  /** Every list built here demands the wallet's signature and no other. */
  lemma OnlyTheWalletSigns(group: Group, marginAccount: PublicKey, wallet: PublicKey, sys: Sysvars, market: SpotMarket,
                           tokenAccount: PublicKey, baseVault: PublicKey, quoteVault: PublicKey, dexSigner: PublicKey,
                           marketOpenOrders: PublicKey, openOrders: seq<PublicKey>)
    ensures SignerKeys(BorrowKeys(group, marginAccount, wallet, sys, openOrders)) == {wallet}
    ensures SignerKeys(WithdrawKeys(group, marginAccount, wallet, tokenAccount, baseVault, sys, openOrders)) == {wallet}
    ensures SignerKeys(SettleBorrowKeys(group, marginAccount, wallet, sys)) == {wallet}
    ensures SignerKeys(SettleFundsKeys(group, wallet, marginAccount, sys, market, marketOpenOrders, baseVault, quoteVault,
                                       dexSigner)) == {wallet}
    ensures SignerKeys(PlaceAndSettleKeys(group, wallet, marginAccount, sys, market, baseVault, quoteVault, dexSigner,
                                          openOrders)) == {wallet}
  {
    SoleSignerNeedsOnlyWallet(BorrowKeys(group, marginAccount, wallet, sys, openOrders), 2, wallet);
    SoleSignerNeedsOnlyWallet(WithdrawKeys(group, marginAccount, wallet, tokenAccount, baseVault, sys, openOrders), 2, wallet);
    SoleSignerNeedsOnlyWallet(SettleBorrowKeys(group, marginAccount, wallet, sys), 2, wallet);
    SoleSignerNeedsOnlyWallet(
      SettleFundsKeys(group, wallet, marginAccount, sys, market, marketOpenOrders, baseVault, quoteVault, dexSigner), 1, wallet);
    SoleSignerNeedsOnlyWallet(
      PlaceAndSettleKeys(group, wallet, marginAccount, sys, market, baseVault, quoteVault, dexSigner, openOrders), 1, wallet);
  }
}

=== FILE: broadcast.dfy ===
/** `sendSignedTransaction`: serialize once, submit once, and keep
    resubmitting the same bytes while its own `done` flag is clear. That flag
    is set in the `finally`, which runs when the send returns or throws: at
    once when the confirmation wait resolves or times out, but only after the
    simulation has come back when the wait was rejected on chain. */
module Broadcast {
  import opened Common
  import opened Diagnosis
  import opened Confirmation

  /** The serialized transaction, the confirmation wait, the simulation once
      it has come back (`Some(None)` when the request failed), the sender's
      own `done` flag, and every payload submitted so far, first submission
      included. */
  datatype Sender = Sender(
    raw: seq<bv8>,
    wait: Tracker,
    simulation: Option<Option<Simulation>>,
    loopDone: bool,
    sent: seq<seq<bv8>>)

  /** A tick of the rebroadcast loop, an event seen by the confirmation wait,
      or the end of the simulation request (`None` when it threw). */
  datatype SendEvent = Resend | Observed(e: Event) | SimulationReturned(result: Option<Simulation>)

  /** What the caller gets: the transaction id, a thrown error, or nothing yet. */
  datatype SendOutcome = Returned(txid: string) | Threw(diagnosis: Diagnosis) | Awaiting

  /** The wait was rejected on chain and the simulation has not come back. */
  predicate Diagnosing(s: Sender)
  {
    && s.wait.settled.Some?
    && s.wait.settled.value.Rejected?
    && s.wait.settled.value.rejection.OnChain?
    && s.simulation.None?
  }

  /** The send has returned or thrown: the wait resolved or timed out, or it
      was rejected on chain and the simulation has come back. */
  predicate Finished(w: Tracker, simulation: Option<Option<Simulation>>)
  {
    match w.settled
    case None => false
    case Some(Resolved(_)) => true
    case Some(Rejected(TimedOut)) => true
    case Some(Rejected(OnChain(_))) => simulation.Some?
  }

  /** Right after the first submission of `raw`. */
  function Start(raw: seq<bv8>, wait: Tracker): Sender
  {
    Sender(raw, wait, None, false, [raw])
  }

  /** One event. A loop tick resends only while `done` is clear. A wait event
      advances the wait. The simulation is only asked for after an on-chain
      rejection, so its result matters only while diagnosing. */
  function SendStep(s: Sender, ev: SendEvent): (r: Sender)
    ensures r.raw == s.raw
    ensures s.loopDone ==> r.loopDone && r.sent == s.sent
    ensures !s.loopDone && ev.Resend? ==> r.sent == s.sent + [s.raw]
    ensures ev.Observed? ==> r.sent == s.sent && r.wait == Step(s.wait, ev.e) && r.simulation == s.simulation
    ensures ev.SimulationReturned? && Diagnosing(s) ==> r == s.(simulation := Some(ev.result), loopDone := true)
    ensures ev.SimulationReturned? && !Diagnosing(s) ==> r == s
  {
    match ev
    case Resend => if s.loopDone then s else s.(sent := s.sent + [s.raw])
    case Observed(e) =>
      var w := Step(s.wait, e);
      s.(wait := w, loopDone := s.loopDone || Finished(w, s.simulation))
    case SimulationReturned(result) =>
      if Diagnosing(s) then s.(simulation := Some(result), loopDone := true) else s
  }

  function SendRun(s: Sender, events: seq<SendEvent>): Sender
    decreases |events|
  {
    if events == [] then s else SendRun(SendStep(s, events[0]), events[1..])
  }

  /** The events the confirmation wait sees, in order. */
  function WaitEvents(events: seq<SendEvent>): (r: seq<Event>)
    ensures forall e :: e in r <==> Observed(e) in events
  {
    if events == [] then []
    else
      assert forall x :: x in events <==> x == events[0] || x in events[1..];
      (if events[0].Observed? then [events[0].e] else []) + WaitEvents(events[1..])
  }

  /** The number of loop ticks in a trace. */
  function CountResends(events: seq<SendEvent>): nat
  {
    if events == [] then 0
    else (if events[0].Resend? then 1 else 0) + CountResends(events[1..])
  }

  /** Every payload submitted is the one serialized payload, a simulation
      exists only after an on-chain rejection, and the loop has stopped
      exactly when the send has returned or thrown. */
  ghost predicate Valid(s: Sender)
  {
    && |s.sent| >= 1
    && (forall i :: 0 <= i < |s.sent| ==> s.sent[i] == s.raw)
    && (s.simulation.Some? ==>
          s.wait.settled.Some? && s.wait.settled.value.Rejected? && s.wait.settled.value.rejection.OnChain?)
    && (s.loopDone <==> Finished(s.wait, s.simulation))
  }

  lemma {:induction false} SendRunKeepsValid(s: Sender, events: seq<SendEvent>)
    requires Valid(s)
    ensures Valid(SendRun(s, events))
    ensures SendRun(s, events).raw == s.raw
    ensures SendRun(s, events).wait == Run(s.wait, WaitEvents(events))
    decreases |events|
  {
    if events != [] {
      var s1 := SendStep(s, events[0]);
      assert Valid(s1);
      SendRunKeepsValid(s1, events[1..]);
      if events[0].Observed? {
        assert WaitEvents(events) == [events[0].e] + WaitEvents(events[1..]);
        assert ([events[0].e] + WaitEvents(events[1..]))[1..] == WaitEvents(events[1..]);
      } else {
        assert WaitEvents(events) == WaitEvents(events[1..]);
      }
    }
  }

  /** Every submission, the first and every rebroadcast, carries the same
      serialized bytes. */
  lemma EverySubmissionIsTheSamePayload(raw: seq<bv8>, wait: Tracker, events: seq<SendEvent>)
    requires wait.settled.None?
    ensures forall i :: 0 <= i < |SendRun(Start(raw, wait), events).sent| ==>
              SendRun(Start(raw, wait), events).sent[i] == raw
  {
    SendRunKeepsValid(Start(raw, wait), events);
  }

  /** Once `done` is set, the loop submits nothing more. */
  lemma {:induction false} LoopStopsForGood(s: Sender, events: seq<SendEvent>)
    requires s.loopDone
    ensures SendRun(s, events).loopDone
    ensures SendRun(s, events).sent == s.sent
    decreases |events|
  {
    if events != [] {
      LoopStopsForGood(SendStep(s, events[0]), events[1..]);
    }
  }

  /** Once the send has returned or thrown, no later event changes the wait's
      outcome or the simulation the error was built from. */
  lemma {:induction false} EndedIsFinal(s: Sender, events: seq<SendEvent>)
    requires Valid(s) && s.loopDone
    ensures SendRun(s, events).wait.settled == s.wait.settled
    ensures SendRun(s, events).simulation == s.simulation
    decreases |events|
  {
    if events != [] {
      var s1 := SendStep(s, events[0]);
      assert Valid(s1);
      EndedIsFinal(s1, events[1..]);
    }
  }

  /** While the send has neither returned nor thrown, each loop tick submits
      once more; that includes the time the simulation is awaited. */
  lemma {:induction false} ResendsUntilTheSendEnds(s: Sender, events: seq<SendEvent>)
    requires !SendRun(s, events).loopDone
    ensures |SendRun(s, events).sent| == |s.sent| + CountResends(events)
    decreases |events|
  {
    if events != [] {
      var s1 := SendStep(s, events[0]);
      if s1.loopDone {
        LoopStopsForGood(s1, events[1..]);
      }
      ResendsUntilTheSendEnds(s1, events[1..]);
    }
  }

  /** A simulation result leaves a sender untouched unless it is diagnosing. */
  lemma {:induction false} NoSimulationWithoutItsEvent(s: Sender, events: seq<SendEvent>)
    requires forall i :: 0 <= i < |events| ==> !events[i].SimulationReturned?
    ensures SendRun(s, events).simulation == s.simulation
    decreases |events|
  {
    if events != [] {
      NoSimulationWithoutItsEvent(SendStep(s, events[0]), events[1..]);
    }
  }

  /** What the caller sees of a sender: the id once the wait resolved, the
      diagnosed error once the wait timed out or the simulation came back,
      and nothing before. */
  function OutcomeOf(s: Sender, txid: string): (r: SendOutcome)
    ensures r.Awaiting? <==> !Finished(s.wait, s.simulation)
    ensures r.Returned? <==> s.wait.settled.Some? && s.wait.settled.value.Resolved?
    ensures r.Returned? ==> r.txid == txid
    ensures r.Threw? ==> s.wait.settled.Some? && s.wait.settled.value.Rejected?
  {
    match s.wait.settled
    case None => Awaiting
    case Some(Resolved(_)) => Returned(txid)
    case Some(Rejected(TimedOut)) => Threw(Diagnose(TimedOut, None, txid))
    case Some(Rejected(OnChain(err))) =>
      if s.simulation.Some? then Threw(Diagnose(OnChain(err), s.simulation.value, txid)) else Awaiting
  }

  /** The whole send after the first submission returned `txid`; `wait` is
      the state of the confirmation wait after its set-up. */
  function Submit(raw: seq<bv8>, txid: string, wait: Tracker, events: seq<SendEvent>): (r: SendOutcome)
    requires wait.settled.None?
    ensures r.Awaiting? <==> !SendRun(Start(raw, wait), events).loopDone
    ensures Run(wait, WaitEvents(events)).settled.None? ==> r.Awaiting?
    ensures r.Returned? <==> Run(wait, WaitEvents(events)).settled.Some? &&
                             Run(wait, WaitEvents(events)).settled.value.Resolved?
    ensures r.Returned? ==> r.txid == txid
    ensures Run(wait, WaitEvents(events)).settled == Some(Rejected(TimedOut)) ==>
              r == Threw(Diagnosis(PlainError(TIMEOUT_MESSAGE), false))
    ensures r.Threw? ==> Run(wait, WaitEvents(events)).settled.Some? &&
                         Run(wait, WaitEvents(events)).settled.value.Rejected?
  {
    SendRunKeepsValid(Start(raw, wait), events);
    OutcomeOf(SendRun(Start(raw, wait), events), txid)
  }

  /** After an on-chain rejection, the error thrown is the diagnosis of the
      first simulation result that comes back, whatever follows it. */
  lemma DiagnosisUsesReturnedSimulation(raw: seq<bv8>, txid: string, wait: Tracker, err: ChainError,
                                        before: seq<SendEvent>, sim: Option<Simulation>, after: seq<SendEvent>)
    requires wait.settled.None?
    requires forall i :: 0 <= i < |before| ==> !before[i].SimulationReturned?
    requires Run(wait, WaitEvents(before)).settled == Some(Rejected(OnChain(err)))
    ensures Submit(raw, txid, wait, before + [SimulationReturned(sim)] + after)
              == Threw(Diagnose(OnChain(err), sim, txid))
  {
    var s0 := Start(raw, wait);
    var x := SimulationReturned(sim);
    SendRunKeepsValid(s0, before);
    NoSimulationWithoutItsEvent(s0, before);
    var sa := SendRun(s0, before);
    assert Diagnosing(sa);
    var sb := SendStep(sa, x);
    assert sb.simulation == Some(sim) && sb.loopDone;
    SendRunAppend(s0, before, [x]);
    assert SendRun(sa, [x]) == sb;
    SendRunKeepsValid(s0, before + [x]);
    EndedIsFinal(sb, after);
    SendRunAppend(s0, before + [x], after);
  }

  /** The window in which the source still rebroadcasts after settlement: an
      on-chain rejection, then a loop tick before the simulation is back. */
  lemma RebroadcastsWhileSimulating(raw: seq<bv8>, txid: string, err: ChainError, sim: Option<Simulation>)
    ensures var events := [Observed(Notified(SignatureResult(Some(err)))), Resend];
            && SendRun(Start(raw, Init(true)), events).sent == [raw, raw]
            && Submit(raw, txid, Init(true), events) == Awaiting
    ensures var events := [Observed(Notified(SignatureResult(Some(err)))), Resend, SimulationReturned(sim), Resend];
            && SendRun(Start(raw, Init(true)), events).sent == [raw, raw]
            && Submit(raw, txid, Init(true), events) == Threw(Diagnose(OnChain(err), sim, txid))
  {
    var s0 := Start(raw, Init(true));
    var s1 := SendStep(s0, Observed(Notified(SignatureResult(Some(err)))));
    assert s1.wait.settled == Some(Rejected(OnChain(err))) && !s1.loopDone;
    var s2 := SendStep(s1, Resend);
    assert s2.sent == [raw, raw] && Diagnosing(s2);
    var s3 := SendStep(s2, SimulationReturned(sim));
    assert s3.loopDone && s3.simulation == Some(sim);
    var s4 := SendStep(s3, Resend);
    assert s4 == s3;
    var events := [Observed(Notified(SignatureResult(Some(err)))), Resend, SimulationReturned(sim), Resend];
    assert SendRun(s0, [Observed(Notified(SignatureResult(Some(err)))), Resend]) == s2 by {
      assert SendRun(s2, []) == s2;
      assert SendRun(s1, [Resend]) == s2;
    }
    assert SendRun(s0, events) == s4 by {
      assert SendRun(s3, [Resend]) == s4;
      assert SendRun(s2, [SimulationReturned(sim), Resend]) == s4;
      assert SendRun(s1, events[1..]) == s4;
    }
  }

  /** `sendSignedTransaction` as written: after a failed subscription set-up
      it never returns or throws. */
  function SendSignedTransaction(raw: seq<bv8>, txid: string, setupOk: bool, events: seq<SendEvent>): (r: SendOutcome)
    ensures r.Awaiting? <==> !SendRun(Start(raw, Init(setupOk)), events).loopDone
    ensures !setupOk ==> r.Awaiting?
    ensures Run(Init(setupOk), WaitEvents(events)).settled == Some(Rejected(TimedOut)) ==>
              r == Threw(Diagnosis(PlainError(TIMEOUT_MESSAGE), false))
  {
    SetupFailureNeverSettles(WaitEvents(events));
    Submit(raw, txid, Init(setupOk), events)
  }

  /** `sendSignedTransaction` with the corrected subscription set-up: once the
      timer has fired, the send has ended or is waiting only for the
      simulation. */
  function SendSignedTransactionCorrected(raw: seq<bv8>, txid: string, setupOk: bool, events: seq<SendEvent>)
    : (r: SendOutcome)
    ensures r.Awaiting? <==> !SendRun(Start(raw, InitCorrected(setupOk)), events).loopDone
    ensures Observed(TimerFired) in events && r.Awaiting? ==>
              Diagnosing(SendRun(Start(raw, InitCorrected(setupOk)), events))
  {
    SendRunKeepsValid(Start(raw, InitCorrected(setupOk)), events);
    if Observed(TimerFired) in events then
      CorrectedWaitAlwaysSettles(setupOk, WaitEvents(events));
      Submit(raw, txid, InitCorrected(setupOk), events)
    else
      Submit(raw, txid, InitCorrected(setupOk), events)
  }

  /** A timed-out send throws the timeout error at once; a simulation result
      arriving later changes nothing, because none was asked for. */
  lemma TimeoutIsNotSimulated(raw: seq<bv8>, txid: string, setupOk: bool, events: seq<SendEvent>,
                              sim: Option<Simulation>, after: seq<SendEvent>)
    requires Run(Init(setupOk), WaitEvents(events)).settled == Some(Rejected(TimedOut))
    ensures SendSignedTransaction(raw, txid, setupOk, events + [SimulationReturned(sim)] + after)
              == Threw(Diagnosis(PlainError(TIMEOUT_MESSAGE), false))
  {
    var s0 := Start(raw, Init(setupOk));
    SendRunKeepsValid(s0, events);
    var s1 := SendRun(s0, events);
    EndedIsFinal(s1, [SimulationReturned(sim)] + after);
    SendRunAppend(s0, events, [SimulationReturned(sim)] + after);
    assert events + [SimulationReturned(sim)] + after == events + ([SimulationReturned(sim)] + after);
  }

  /** As written, once the subscription set-up fails the send never returns
      or throws, and every loop tick submits the payload again. */
  lemma SetupFailureHangsAndRebroadcasts(raw: seq<bv8>, txid: string, events: seq<SendEvent>)
    ensures SendSignedTransaction(raw, txid, false, events) == Awaiting
    ensures |SendRun(Start(raw, Init(false)), events).sent| == 1 + CountResends(events)
  {
    assert SendSignedTransaction(raw, txid, false, events).Awaiting?;
    ResendsUntilTheSendEnds(Start(raw, Init(false)), events);
  }

  /** With the corrected set-up, a send whose timer has fired ends at the
      latest when a simulation result comes back, and from then on nothing
      more is submitted. */
  lemma CorrectedSendEnds(raw: seq<bv8>, txid: string, setupOk: bool, events: seq<SendEvent>,
                          sim: Option<Simulation>, more: seq<SendEvent>)
    requires Observed(TimerFired) in events
    ensures !SendSignedTransactionCorrected(raw, txid, setupOk, events + [SimulationReturned(sim)]).Awaiting?
    ensures SendRun(Start(raw, InitCorrected(setupOk)), events + [SimulationReturned(sim)] + more).sent
              == SendRun(Start(raw, InitCorrected(setupOk)), events + [SimulationReturned(sim)]).sent
  {
    var s0 := Start(raw, InitCorrected(setupOk));
    var x := SimulationReturned(sim);
    CorrectedWaitAlwaysSettles(setupOk, WaitEvents(events));
    SendRunKeepsValid(s0, events);
    var sa := SendRun(s0, events);
    var sb := SendStep(sa, x);
    assert sb.loopDone;
    SendRunAppend(s0, events, [x]);
    assert SendRun(sa, [x]) == sb;
    LoopStopsForGood(sb, more);
    SendRunAppend(s0, events + [x], more);
  }

  lemma {:induction false} SendRunAppend(s: Sender, a: seq<SendEvent>, b: seq<SendEvent>)
    ensures SendRun(s, a + b) == SendRun(SendRun(s, a), b)
    decreases |a|
  {
    if a == [] {
      assert a + b == b;
    } else {
      assert (a + b)[0] == a[0];
      assert (a + b)[1..] == a[1..] + b;
      SendRunAppend(SendStep(s, a[0]), a[1..], b);
    }
  }
}

=== FILE: common.dfy ===
/** Shared vocabulary of the model: optional values, results, public keys and
    the small sequence helpers (prefix test, order-preserving filter) that the
    client code uses through JavaScript built-ins. */
module Common {

  /** A value that may be absent: JavaScript's `undefined`/`null`. */
  datatype Option<+T> = None | Some(value: T)

  /** The outcome of an operation that may throw an `Error` with a message. */
  datatype Result<+R> = Ok(value: R) | Err(message: string)

  /** An account address; equality of the bytes is `PublicKey.equals`. */
  datatype PublicKey = PublicKey(bytes: seq<bv8>)

  /** One entry of an instruction's account list. */
  datatype AccountMeta = AccountMeta(pubkey: PublicKey, isSigner: bool, isWritable: bool)

  /** A `TransactionInstruction`: the program, its accounts and its encoded data. */
  datatype Instruction = Instruction(programId: PublicKey, keys: seq<AccountMeta>, data: seq<bv8>)

  /** `s` begins with `prefix`. */
  predicate StartsWith(s: string, prefix: string)
  {
    |prefix| <= |s| && s[..|prefix|] == prefix
  }

  /** The text of `s` after the first `n` characters
      (empty when `n` is past the end). */
  function SliceFrom(s: string, n: nat): (r: string)
    ensures n <= |s| ==> s == s[..n] + r
    ensures n >= |s| ==> r == []
  {
    if n <= |s| then s[n..] else []
  }

  /** Stripping a prefix undoes prepending it. */
  lemma SliceAfterPrefix(prefix: string, rest: string)
    ensures StartsWith(prefix + rest, prefix)
    ensures SliceFrom(prefix + rest, |prefix|) == rest
  {
    assert (prefix + rest)[..|prefix|] == prefix;
    assert (prefix + rest)[|prefix|..] == rest;
  }

  /** The elements of `xs` satisfying `p`, in their original order. */
  function Filter<T(!new)>(xs: seq<T>, p: T -> bool): (r: seq<T>)
    ensures |r| <= |xs|
    ensures forall x :: x in r <==> x in xs && p(x)
  {
    if xs == [] then []
    else
      var tail := Filter(xs[1..], p);
      assert forall x :: x in xs <==> x == xs[0] || x in xs[1..];
      if p(xs[0]) then [xs[0]] + tail else tail
  }

  /** Filtering distributes over concatenation, so it keeps relative order. */
  lemma {:induction false} FilterAppend<T(!new)>(xs: seq<T>, ys: seq<T>, p: T -> bool)
    ensures Filter(xs + ys, p) == Filter(xs, p) + Filter(ys, p)
  {
    if xs == [] {
      assert xs + ys == ys;
    } else {
      assert (xs + ys)[0] == xs[0];
      assert (xs + ys)[1..] == xs[1..] + ys;
      FilterAppend(xs[1..], ys, p);
    }
  }
}

=== FILE: confirmation.dfy ===
/** `awaitTransactionSignatureConfirmation` as a state machine over a trace of
    events. Three tasks race on one `done` flag: a timer, a signature
    subscription and a poll loop. The wait's promise keeps only the first
    settlement. The model keeps the code as written. The one place where that
    departs from the evident intent (a failed subscription set-up) has a
    corrected initial state beside it. */
module Confirmation {
  import opened Common
  import opened Diagnosis

  /** The `confirmationStatus` of a polled signature status. */
  datatype Commitment = Processed | Confirmed | Finalized

  /** One entry of `getSignatureStatuses(...).value`. */
  datatype SignatureStatus = SignatureStatus(
    err: Option<ChainError>,
    confirmations: Option<nat>,
    confirmationStatus: Option<Commitment>)

  /** A `getSignatureStatuses` response: the `value` array of per-signature
      entries, each possibly null. */
  datatype StatusResponse = StatusResponse(value: seq<Option<SignatureStatus>>)

  /** The argument of the `onSignature` callback. */
  datatype SignatureResult = SignatureResult(err: Option<ChainError>)

  /** How one polled status is read. */
  datatype PollVerdict = StillPending | PollFailed(err: ChainError) | PollConfirmed(status: SignatureStatus)

  /** What the wait resolves with. */
  datatype Confirmation = ByNotification(result: SignatureResult) | ByPoll(status: SignatureStatus)

  /** The settled value of the wait's promise. */
  datatype Outcome = Resolved(confirmation: Confirmation) | Rejected(rejection: Rejection)

  /** What the racing tasks can observe, in the order they happen.
      `StatusArrived(None)` is a null response; `PollThrew` a failed request. */
  datatype Event =
    | TimerFired
    | Notified(result: SignatureResult)
    | StatusArrived(response: Option<StatusResponse>)
    | PollThrew

  /** The shared `done` flag, whether the subscription callback is registered,
      and the promise's settled value. */
  datatype Tracker = Tracker(done: bool, subscribed: bool, settled: Option<Outcome>)

  /** The first entry of a status response: the status for the
      one signature asked about (absent for a null response or empty array). */
  function FirstStatus(response: Option<StatusResponse>): (r: Option<SignatureStatus>)
    ensures r.Some? <==> response.Some? && |response.value.value| > 0 && response.value.value[0].Some?
    ensures r.Some? ==> r == response.value.value[0]
  {
    match response
    case None => None
    case Some(resp) => if |resp.value| == 0 then None else resp.value[0]
  }

  /** A status counts as confirmed when it has a nonzero confirmation count,
      or has reached the 'confirmed' or 'finalized' level. */
  predicate ConfirmedEnough(status: SignatureStatus)
  {
    || (status.confirmations.Some? && status.confirmations.value != 0)
    || status.confirmationStatus == Some(Confirmed)
    || status.confirmationStatus == Some(Finalized)
  }

  /** The poll loop's reading of one status. */
  function Classify(status: Option<SignatureStatus>): (v: PollVerdict)
    ensures status.None? ==> v == StillPending
    ensures status.Some? && status.value.err.Some? ==> v == PollFailed(status.value.err.value)
    ensures v.PollFailed? ==> status.Some? && status.value.err == Some(v.err)
    ensures v.PollConfirmed? <==> status.Some? && status.value.err.None? && ConfirmedEnough(status.value)
    ensures v.PollConfirmed? ==> v.status == status.value
  {
    match status
    case None => StillPending
    case Some(s) =>
      if s.err.Some? then PollFailed(s.err.value)
      else if !ConfirmedEnough(s) then StillPending
      else PollConfirmed(s)
  }

  /** `resolve`/`reject`: only the first settlement of a promise counts. */
  function Settle(t: Tracker, o: Outcome): Tracker
  {
    if t.settled.Some? then t else t.(settled := Some(o))
  }

  /** The state after the set-up of the subscription, as written: a throwing
      set-up sets `done` and registers nothing. */
  function Init(setupOk: bool): (t: Tracker)
    ensures t.settled.None?
    ensures t.subscribed == setupOk && t.done == !setupOk
    ensures DoneMeansSettled(t) <==> setupOk
  {
    Tracker(!setupOk, setupOk, None)
  }

  /** The corrected set-up: a throwing set-up only leaves the subscription
      out, so the timer and the poll loop still decide the outcome. */
  function InitCorrected(setupOk: bool): (t: Tracker)
    ensures t.settled.None? && !t.done
    ensures t.subscribed == setupOk
    ensures DoneMeansSettled(t)
  {
    Tracker(false, setupOk, None)
  }

  /** One event, handled as each task's code does it. The timer and the poll
      results look at `done` first; the subscription callback does not, and
      relies on the promise ignoring a second settlement. */
  function Step(t: Tracker, e: Event): (r: Tracker)
    ensures t.settled.Some? ==> r.settled == t.settled
    ensures t.done ==> r.done
    ensures r.subscribed == t.subscribed
    ensures t.done && (e.TimerFired? || e.StatusArrived? || e.PollThrew?) ==> r == t
    ensures r.settled.Some? && t.settled.None? ==> r.done
    ensures !t.done && t.settled.None? && e.TimerFired? ==> r.done && r.settled == Some(Rejected(TimedOut))
    ensures t.subscribed && e.Notified? && t.settled.None? ==>
              r.settled == Some(if e.result.err.Some? then Rejected(OnChain(e.result.err.value))
                                else Resolved(ByNotification(e.result)))
    ensures !t.subscribed && e.Notified? ==> r == t
    ensures !t.done && t.settled.None? && e.StatusArrived? ==>
              r.settled == (match Classify(FirstStatus(e.response))
                            case StillPending => None
                            case PollFailed(err) => Some(Rejected(OnChain(err)))
                            case PollConfirmed(status) => Some(Resolved(ByPoll(status))))
    ensures e.StatusArrived? && Classify(FirstStatus(e.response)).StillPending? ==> r == t
    ensures e.PollThrew? ==> r == t
  {
    match e
    case TimerFired =>
      if t.done then t else Settle(t.(done := true), Rejected(TimedOut))
    case Notified(result) =>
      if !t.subscribed then t
      else
        var o := if result.err.Some? then Rejected(OnChain(result.err.value)) else Resolved(ByNotification(result));
        Settle(t.(done := true), o)
    case StatusArrived(response) =>
      if t.done then t
      else
        (match Classify(FirstStatus(response))
         case StillPending => t
         case PollFailed(err) => Settle(t.(done := true), Rejected(OnChain(err)))
         case PollConfirmed(status) => Settle(t.(done := true), Resolved(ByPoll(status))))
    case PollThrew => t
  }

  /** The state after a whole trace of events. */
  function Run(t: Tracker, events: seq<Event>): Tracker
    decreases |events|
  {
    if events == [] then t else Run(Step(t, events[0]), events[1..])
  }

  /** Running two traces one after the other is running their concatenation. */
  lemma {:induction false} RunAppend(t: Tracker, a: seq<Event>, b: seq<Event>)
    ensures Run(t, a + b) == Run(Run(t, a), b)
    decreases |a|
  {
    if a == [] {
      assert a + b == b;
    } else {
      assert (a + b)[0] == a[0];
      assert (a + b)[1..] == a[1..] + b;
      RunAppend(Step(t, a[0]), a[1..], b);
    }
  }

  /** Once settled, no later event changes the outcome. */
  lemma {:induction false} SettledIsFinal(t: Tracker, events: seq<Event>)
    requires t.settled.Some?
    ensures Run(t, events).settled == t.settled
    decreases |events|
  {
    if events != [] {
      SettledIsFinal(Step(t, events[0]), events[1..]);
    }
  }

  /** Once set, `done` stays set. */
  lemma {:induction false} DoneIsFinal(t: Tracker, events: seq<Event>)
    requires t.done
    ensures Run(t, events).done
    decreases |events|
  {
    if events != [] {
      DoneIsFinal(Step(t, events[0]), events[1..]);
    }
  }

  /** The first event that settles the wait decides its outcome, whatever
      comes after it. */
  lemma FirstSettlementWins(t: Tracker, before: seq<Event>, e: Event, after: seq<Event>)
    requires Run(t, before).settled.None?
    requires Step(Run(t, before), e).settled.Some?
    ensures Run(t, before + [e] + after).settled == Step(Run(t, before), e).settled
  {
    RunAppend(t, before + [e], after);
    RunAppend(t, before, [e]);
    SettledIsFinal(Run(t, before + [e]), after);
  }

  /** Settled implies done, and in a corrected run done implies settled. */
  ghost predicate Consistent(t: Tracker)
  {
    t.settled.Some? ==> t.done
  }

  ghost predicate DoneMeansSettled(t: Tracker)
  {
    t.done <==> t.settled.Some?
  }

  lemma {:induction false} RunKeepsConsistent(t: Tracker, events: seq<Event>)
    requires Consistent(t)
    ensures Consistent(Run(t, events))
    decreases |events|
  {
    if events != [] {
      RunKeepsConsistent(Step(t, events[0]), events[1..]);
    }
  }

  lemma {:induction false} RunKeepsDoneMeansSettled(t: Tracker, events: seq<Event>)
    requires DoneMeansSettled(t)
    ensures DoneMeansSettled(Run(t, events))
    decreases |events|
  {
    if events != [] {
      RunKeepsDoneMeansSettled(Step(t, events[0]), events[1..]);
    }
  }

  /** In a run where `done` is only ever set together with a settlement, the
      timer settles the wait: any trace containing the timer event ends
      settled. */
  lemma {:induction false} TimerSettles(t: Tracker, events: seq<Event>)
    requires DoneMeansSettled(t)
    requires TimerFired in events
    ensures Run(t, events).settled.Some?
    decreases |events|
  {
    var t1 := Step(t, events[0]);
    if events[0] == TimerFired {
      assert t1.settled.Some?;
      SettledIsFinal(t1, events[1..]);
    } else {
      assert TimerFired in events[1..];
      TimerSettles(t1, events[1..]);
    }
  }

  /** Corrected set-up: every trace in which the timer fires settles, whether
      or not the subscription could be set up. */
  lemma CorrectedWaitAlwaysSettles(setupOk: bool, events: seq<Event>)
    requires TimerFired in events
    ensures Run(InitCorrected(setupOk), events).settled.Some?
  {
    TimerSettles(InitCorrected(setupOk), events);
  }

  /** As written, with the subscription set up, the timer likewise settles. */
  lemma SubscribedWaitSettles(events: seq<Event>)
    requires TimerFired in events
    ensures Run(Init(true), events).settled.Some?
  {
    TimerSettles(Init(true), events);
  }

  /** As written, a failed subscription set-up leaves the wait unsettled
      forever: `done` is already set, so the timer returns early, the poll
      loop never starts, and no callback is registered. */
  lemma {:induction false} SetupFailureNeverSettles(events: seq<Event>)
    ensures Run(Init(false), events).settled.None?
  {
    StuckStaysStuck(Init(false), events);
  }

  lemma {:induction false} StuckStaysStuck(t: Tracker, events: seq<Event>)
    requires t.done && !t.subscribed && t.settled.None?
    ensures Run(t, events) == t
    decreases |events|
  {
    if events != [] {
      StuckStaysStuck(Step(t, events[0]), events[1..]);
    }
  }

  /** The concrete trace that shows it: the timer fires and nothing settles. */
  lemma SetupFailureTimerIsIgnored()
    ensures Run(Init(false), [TimerFired]).settled.None?
    ensures Run(InitCorrected(false), [TimerFired]).settled == Some(Rejected(TimedOut))
  {
    SetupFailureNeverSettles([TimerFired]);
  }
}

=== FILE: diagnosis.dfy ===
/** Failure diagnosis in `sendSignedTransaction`: how the rejection of the
    confirmation wait becomes the error the caller sees. A timeout is reported
    as such without simulating; any other rejection re-simulates the signed
    transaction and reports the last "Program log: " line of the simulation,
    else the JSON of the simulated error, else a generic failure. */
module Diagnosis {
  import opened Common

  const TIMEOUT_MESSAGE := "Timed out awaiting confirmation on transaction"
  const PROGRAM_LOG_PREFIX := "Program log: "
  const FAILED_PREFIX := "Transaction failed: "
  const GENERIC_FAILURE := "Transaction failed"

  /** An on-chain transaction error, represented by its `JSON.stringify` text. */
  datatype ChainError = ChainError(json: string)

  /** Why the confirmation wait rejected: the `{ timeout: true }` marker, or the
      `err` of a notification or of a polled status. */
  datatype Rejection = TimedOut | OnChain(err: ChainError)

  /** The `value` of a simulation response: its `err` and `logs`, either of
      which may be null. */
  datatype Simulation = Simulation(err: Option<ChainError>, logs: Option<seq<string>>)

  /** What `sendSignedTransaction` throws: a plain `Error`, or a
      `TransactionError` carrying the transaction id. */
  datatype Raised = PlainError(message: string) | TransactionError(message: string, txid: string)

  /** The thrown error together with whether a simulation was requested. */
  datatype Diagnosis = Diagnosis(raised: Raised, simulated: bool)

  predicate IsProgramLog(line: string)
  {
    StartsWith(line, PROGRAM_LOG_PREFIX)
  }

  /** `k` is the position of the last program-log line of `logs`. */
  ghost predicate IsLastProgramLog(logs: seq<string>, k: int)
  {
    && 0 <= k < |logs|
    && IsProgramLog(logs[k])
    && forall j :: k < j < |logs| ==> !IsProgramLog(logs[j])
  }

  /** The index of the last program-log line, found by looking at the lines
      from the end backwards. */
  function LastProgramLog(logs: seq<string>): (r: Option<nat>)
    ensures r.Some? ==> IsLastProgramLog(logs, r.value)
    ensures r.None? ==> forall j :: 0 <= j < |logs| ==> !IsProgramLog(logs[j])
  {
    if logs == [] then None
    else if IsProgramLog(logs[|logs| - 1]) then Some(|logs| - 1)
    else LastProgramLog(logs[..|logs| - 1])
  }

  /** The backwards scan of the simulation logs, as the loop is written. */
  method ScanLogsBackward(logs: seq<string>) returns (found: Option<nat>)
    ensures found == LastProgramLog(logs)
  {
    var i := |logs| - 1;
    while i >= 0
      invariant -1 <= i < |logs|
      invariant forall j :: i < j < |logs| ==> !IsProgramLog(logs[j])
    {
      if IsProgramLog(logs[i]) {
        return Some(i);
      }
      i := i - 1;
    }
    return None;
  }

  /** The error raised once the confirmation wait has rejected with
      `rejection`. `simulation` is what `simulateTransaction` would give
      (`None` when it throws or yields a null value); it is consulted only
      when the rejection is not a timeout. */
  function Diagnose(rejection: Rejection, simulation: Option<Simulation>, txid: string): (d: Diagnosis)
    ensures rejection.TimedOut? <==> !d.simulated
    ensures rejection.TimedOut? ==> d.raised == PlainError(TIMEOUT_MESSAGE)
    ensures rejection.OnChain? ==> d.raised.TransactionError? && d.raised.txid == txid
    ensures rejection.OnChain? && (simulation.None? || simulation.value.err.None?) ==>
              d.raised.message == GENERIC_FAILURE
    ensures rejection.OnChain? && simulation.Some? && simulation.value.err.Some? ==>
              var logs := simulation.value.logs;
              && (forall k :: logs.Some? && IsLastProgramLog(logs.value, k) ==>
                    d.raised.message == FAILED_PREFIX + SliceFrom(logs.value[k], |PROGRAM_LOG_PREFIX|))
              && ((logs.None? || forall j :: 0 <= j < |logs.value| ==> !IsProgramLog(logs.value[j])) ==>
                    d.raised.message == simulation.value.err.value.json)
  {
    match rejection
    case TimedOut => Diagnosis(PlainError(TIMEOUT_MESSAGE), false)
    case OnChain(_) =>
      var message :=
        if simulation.Some? && simulation.value.err.Some? then
          var logs := if simulation.value.logs.Some? then simulation.value.logs.value else [];
          match LastProgramLog(logs)
          case Some(k) => FAILED_PREFIX + SliceFrom(logs[k], |PROGRAM_LOG_PREFIX|)
          case None => simulation.value.err.value.json
        else GENERIC_FAILURE;
      Diagnosis(TransactionError(message, txid), true)
  }

  /** A timeout is diagnosed the same whatever a simulation would have said. */
  lemma TimeoutIgnoresSimulation(s1: Option<Simulation>, s2: Option<Simulation>, txid: string)
    ensures Diagnose(TimedOut, s1, txid) == Diagnose(TimedOut, s2, txid)
    ensures !Diagnose(TimedOut, s1, txid).simulated
  {
  }

  /** Round trip: a program that logged `reason` as its last program-log line,
      followed by any lines that are not program logs, is reported as
      "Transaction failed: " + `reason`, whatever it logged before. */
  lemma {:induction false} LastLogReasonIsReported(
    before: seq<string>, reason: string, after: seq<string>, err: ChainError, cause: ChainError, txid: string)
    requires forall j :: 0 <= j < |after| ==> !IsProgramLog(after[j])
    ensures
      var logs := before + [PROGRAM_LOG_PREFIX + reason] + after;
      Diagnose(OnChain(cause), Some(Simulation(Some(err), Some(logs))), txid).raised
        == TransactionError(FAILED_PREFIX + reason, txid)
  {
    var logs := before + [PROGRAM_LOG_PREFIX + reason] + after;
    var k := |before|;
    assert logs[k] == PROGRAM_LOG_PREFIX + reason;
    SliceAfterPrefix(PROGRAM_LOG_PREFIX, reason);
    forall j | k < j < |logs|
      ensures !IsProgramLog(logs[j])
    {
      assert logs[j] == after[j - k - 1];
    }
    assert IsLastProgramLog(logs, k);
  }
}

=== FILE: lending_client.dfy ===
/** The selection rules of the `MangoBorrowLending` client object: which
    margin account an operation uses, whether a deposit first creates one,
    when a repayment is skipped, and which wallet token accounts are active
    and which group tokens are missing from the wallet. Every network call
    becomes an input; the calls the rules lead to are returned as values. */
module LendingClient {
  import opened Common
  import opened Mints

  /** `tokenDetail`: the wallet's token account and its mint. */
  datatype TokenDetail = TokenDetail(publicKey: PublicKey, mint: PublicKey)

  /** The lending call `deposit` makes. */
  datatype DepositCall =
    | InitAndDeposit(token: PublicKey, tokenAccount: PublicKey, quantity: int)
    | DepositInto(marginAccount: PublicKey, token: PublicKey, tokenAccount: PublicKey, quantity: int)

  /** The `borrows` and `deposits` of the asset being repaid. */
  datatype Asset = Asset(borrows: int, deposits: int)

  /** What `repay` does: nothing, or a deposit of the settle quantity. */
  datatype RepayCall =
    | NoBorrows
    | RepayDeposit(marginAccount: Option<PublicKey>, token: PublicKey, tokenAccount: PublicKey, quantity: int)

  /** A token account as `getOwnedSplTokenAccounts` reports it: the mint's
      base58 text, the owner and the raw amount. */
  datatype TokenAccount = TokenAccount(mint: string, owner: PublicKey, amount: int)

  /** An entry of `activeWallets`: the account address, its token symbol
      (the source's `type` field) and its contents. */
  datatype WalletEntry = WalletEntry(publicKey: PublicKey, tokenType: string, account: TokenAccount)

  /** What `getTokensInWallet` returns: the bare symbol names when the wallet
      account does not exist, otherwise the active wallets and missing tokens. */
  datatype WalletTokens =
    | GroupSymbols(symbols: seq<string>)
    | Holdings(activeWallets: seq<WalletEntry>, missingTokens: seq<string>)

  /** `getMarginAccount`: the supplied account, else the first of the owner's
      accounts (absent when the owner's list is missing or empty). */
  function GetMarginAccount(supplied: Option<PublicKey>, owned: Option<seq<PublicKey>>): (r: Option<PublicKey>)
    ensures supplied.Some? ==> r == supplied
    ensures supplied.None? && owned.Some? && |owned.value| > 0 ==> r == Some(owned.value[0])
    ensures r.None? <==> supplied.None? && (owned.None? || |owned.value| == 0)
    ensures r.Some? ==> r == supplied || (owned.Some? && r.value in owned.value)
  {
    if supplied.Some? then supplied
    else if owned.Some? && |owned.value| > 0 then Some(owned.value[0])
    else None
  }

  /** `deposit`: with no margin account supplied and none owned, create one
      and deposit into it; otherwise deposit into the account
      `getMarginAccount` would pick. */
  function Deposit(detail: TokenDetail, quantity: int, supplied: Option<PublicKey>, owned: Option<seq<PublicKey>>)
    : (r: DepositCall)
    ensures r.InitAndDeposit? <==> supplied.None? && (owned.None? || |owned.value| == 0)
    ensures r.DepositInto? ==> Some(r.marginAccount) == GetMarginAccount(supplied, owned)
    ensures r.token == detail.mint && r.tokenAccount == detail.publicKey && r.quantity == quantity
  {
    if (owned.None? || |owned.value| == 0) && supplied.None? then
      InitAndDeposit(detail.mint, detail.publicKey, quantity)
    else
      var toUse := if supplied.Some? then supplied.value else owned.value[0];
      DepositInto(toUse, detail.mint, detail.publicKey, quantity)
  }

  /** `repay`: nothing to do when the asset has no borrows; otherwise a
      deposit of the settle quantity. `token` and `tokenAccount` stand for
      the deposit's token arguments, which the method takes from outside its
      own parameters. */
  function Repay(asset: Asset, marginAccount: Option<PublicKey>, token: PublicKey, tokenAccount: PublicKey,
                 settleQuantity: int): (r: RepayCall)
    ensures r.NoBorrows? <==> asset.borrows == 0
    ensures r.RepayDeposit? ==> r.quantity == settleQuantity && r.marginAccount == marginAccount
  {
    if asset.borrows == 0 then NoBorrows
    else RepayDeposit(marginAccount, token, tokenAccount, settleQuantity)
  }

  /** An SPL account counts as active when its symbol is a group symbol. */
  function IsGroupToken(groupSymbols: seq<string>): WalletEntry -> bool
  {
    (a: WalletEntry) => a.tokenType in groupSymbols
  }

  /** The symbols of the active wallets, read back from their mints; the
      element-wise ensures is what the missing-token clause of
      `GetTokensInWallet` is proved from. */
  function HeldSymbols(mints: seq<TokenMint>, active: seq<WalletEntry>): (r: seq<string>)
    ensures |r| == |active|
    ensures forall i :: 0 <= i < |active| ==> r[i] == SymbolForMintAddress(mints, active[i].account.mint)
  {
    seq(|active|, i requires 0 <= i < |active| => SymbolForMintAddress(mints, active[i].account.mint))
  }

  /** `getTokensInWallet`. `native` is the lamport balance of the wallet's
      own account, absent when that account does not exist; `wrappedSolMint`
      is the wrapped-SOL mint's text and `mints` the token table. */
  function GetTokensInWallet(splAccounts: seq<WalletEntry>, groupSymbols: seq<string>, native: Option<nat>,
                             wallet: PublicKey, mints: seq<TokenMint>, wrappedSolMint: string): (r: WalletTokens)
    ensures native.None? ==> r == GroupSymbols(groupSymbols)
    ensures native.Some? ==> r.Holdings? && 1 <= |r.activeWallets| <= 1 + |splAccounts|
    ensures native.Some? ==>
              r.activeWallets[0] == WalletEntry(wallet, SymbolForMintAddress(mints, wrappedSolMint),
                                                TokenAccount(wrappedSolMint, wallet, native.value))
    ensures native.Some? ==>
              forall a :: a in r.activeWallets[1..] <==> a in splAccounts && a.tokenType in groupSymbols
    ensures native.Some? ==>
              forall s :: s in r.missingTokens <==>
                s in groupSymbols
                && forall i :: 0 <= i < |r.activeWallets| ==> SymbolForMintAddress(mints, r.activeWallets[i].account.mint) != s
  {
    if native.None? then GroupSymbols(groupSymbols)
    else
      var nativeEntry := WalletEntry(wallet, SymbolForMintAddress(mints, wrappedSolMint),
                                     TokenAccount(wrappedSolMint, wallet, native.value));
      var active := [nativeEntry] + Filter(splAccounts, IsGroupToken(groupSymbols));
      assert active[1..] == Filter(splAccounts, IsGroupToken(groupSymbols));
      var held := HeldSymbols(mints, active);
      var missing := Filter(groupSymbols, (s: string) => s !in held);
      Holdings(active, missing)
  }

  /** The active SPL accounts keep the order `getOwnedSplTokenAccounts`
      reported them in: splitting the reported list splits the active list
      the same way. */
  lemma ActiveWalletsKeepOrder(before: seq<WalletEntry>, after: seq<WalletEntry>, groupSymbols: seq<string>,
                               lamports: nat, wallet: PublicKey, mints: seq<TokenMint>, wrappedSolMint: string)
    ensures
      var all := GetTokensInWallet(before + after, groupSymbols, Some(lamports), wallet, mints, wrappedSolMint);
      var first := GetTokensInWallet(before, groupSymbols, Some(lamports), wallet, mints, wrappedSolMint);
      var second := GetTokensInWallet(after, groupSymbols, Some(lamports), wallet, mints, wrappedSolMint);
      all.activeWallets == first.activeWallets + second.activeWallets[1..]
  {
    FilterAppend(before, after, IsGroupToken(groupSymbols));
  }

  /** The missing tokens keep the group's symbol order: splitting the symbol
      list splits the missing list the same way. */
  lemma MissingTokensKeepOrder(splAccounts: seq<WalletEntry>, first: seq<string>, second: seq<string>,
                               lamports: nat, wallet: PublicKey, mints: seq<TokenMint>, wrappedSolMint: string)
    ensures
      var r := GetTokensInWallet(splAccounts, first + second, Some(lamports), wallet, mints, wrappedSolMint);
      var held := HeldSymbols(mints, r.activeWallets);
      r.missingTokens == Filter(first, (s: string) => s !in held) + Filter(second, (s: string) => s !in held)
  {
    var r := GetTokensInWallet(splAccounts, first + second, Some(lamports), wallet, mints, wrappedSolMint);
    var held := HeldSymbols(mints, r.activeWallets);
    FilterAppend(first, second, (s: string) => s !in held);
  }

  /** The native SOL entry always counts as held: the symbol of the
      wrapped-SOL mint is never reported missing. */
  lemma NativeSymbolNeverMissing(splAccounts: seq<WalletEntry>, groupSymbols: seq<string>, lamports: nat,
                                 wallet: PublicKey, mints: seq<TokenMint>, wrappedSolMint: string)
    ensures
      var r := GetTokensInWallet(splAccounts, groupSymbols, Some(lamports), wallet, mints, wrappedSolMint);
      SymbolForMintAddress(mints, wrappedSolMint) !in r.missingTokens
  {
  }
}

=== FILE: mints.dfy ===
/** `getSymbolForTokenMintAddress`: the symbol of a token mint, looked up in
    the serum token table by the mint's base58 text. */
module Mints {
  import opened Common

  /** One entry of the token table. */
  datatype TokenMint = TokenMint(address: string, name: string)

  /** `k` is the first table position whose address is `address`. */
  ghost predicate IsFirstMatch(mints: seq<TokenMint>, address: string, k: int)
  {
    && 0 <= k < |mints|
    && mints[k].address == address
    && forall j :: 0 <= j < k ==> mints[j].address != address
  }

  /** The position of the first table entry whose address text is `address`. */
  function Find(mints: seq<TokenMint>, address: string): (r: Option<nat>)
    ensures r.Some? ==> IsFirstMatch(mints, address, r.value)
    ensures r.None? ==> forall j :: 0 <= j < |mints| ==> mints[j].address != address
  {
    if mints == [] then None
    else if mints[0].address == address then Some(0)
    else
      match Find(mints[1..], address)
      case None => None
      case Some(k) => Some(k + 1)
  }

  /** The symbol of a mint address; empty for an empty address or one the
      table does not know. */
  function SymbolForMintAddress(mints: seq<TokenMint>, address: string): (name: string)
    ensures address == [] ==> name == []
    ensures (forall j :: 0 <= j < |mints| ==> mints[j].address != address) ==> name == []
    ensures address != [] ==> forall k :: IsFirstMatch(mints, address, k) ==> name == mints[k].name
  {
    if address != [] then
      match Find(mints, address)
      case Some(k) => mints[k].name
      case None => []
    else []
  }

  /** In a table without repeated addresses, looking up an entry's own
      non-empty address gives back that entry's name. */
  lemma LookupOwnAddress(mints: seq<TokenMint>, i: nat)
    requires i < |mints| && mints[i].address != []
    requires forall j, k :: 0 <= j < k < |mints| ==> mints[j].address != mints[k].address
    ensures SymbolForMintAddress(mints, mints[i].address) == mints[i].name
  {
    assert IsFirstMatch(mints, mints[i].address, i);
  }
}

=== FILE: place_order.dfy ===
/** `placeAndSettle`: the order-size and price checks, the rebuilt list of
    open-orders keys (the market's slot is replaced by a freshly created
    account when it holds the zero key), and the instructions the transaction
    receives. Lot conversions, fee rates and instruction encoding are external
    and enter as values. */
module PlaceOrder {
  import opened Common

  const SIZE_TOO_SMALL := "size too small"
  const INVALID_PRICE := "invalid price"
  /** The `TypeError` of reading `.equals` of a missing open-orders slot. */
  const MISSING_SLOT := "Cannot read properties of undefined (reading 'equals')"

  /** The instructions of the transaction, in the order they are added. */
  datatype PlaceInstruction =
    | CreateOpenOrders(account: PublicKey)
    | PreSettle(openOrders: PublicKey)
    | PlaceAndSettle(openOrdersKeys: seq<PublicKey>)

  /** The transaction's instructions, the rebuilt key list and the extra
      signers it is sent with. */
  datatype PlacePlan = PlacePlan(
    instructions: seq<PlaceInstruction>,
    openOrdersKeys: seq<PublicKey>,
    signers: seq<PublicKey>)

  /** The key the loop pushes for slot `i`. */
  function KeyForSlot(openOrders: seq<PublicKey>, marketIndex: int, zeroKey: PublicKey, newAccount: PublicKey, i: nat): PublicKey
    requires i < |openOrders|
  {
    if i == marketIndex && openOrders[marketIndex] == zeroKey then newAccount else openOrders[i]
  }

  /** `openOrdersKeys` after the loop has visited the first `n` slots. */
  function RebuildKeys(openOrders: seq<PublicKey>, marketIndex: int, zeroKey: PublicKey, newAccount: PublicKey, n: nat)
    : (keys: seq<PublicKey>)
    requires n <= |openOrders|
    ensures |keys| == n
    ensures forall i :: 0 <= i < n && i != marketIndex ==> keys[i] == openOrders[i]
    ensures 0 <= marketIndex < n ==>
              keys[marketIndex] == if openOrders[marketIndex] == zeroKey then newAccount else openOrders[marketIndex]
  {
    if n == 0 then []
    else RebuildKeys(openOrders, marketIndex, zeroKey, newAccount, n - 1) + [KeyForSlot(openOrders, marketIndex, zeroKey, newAccount, n - 1)]
  }

  /** The whole key list. */
  function OpenOrdersKeys(openOrders: seq<PublicKey>, marketIndex: int, zeroKey: PublicKey, newAccount: PublicKey)
    : seq<PublicKey>
  {
    RebuildKeys(openOrders, marketIndex, zeroKey, newAccount, |openOrders|)
  }

  /** `placeAndSettle` with the order sizes already converted to lots. The
      checks come first, in the source's order. `newAccount` is the key of the
      account the source would create. */
  function PlaceAndSettlePlan(maxBaseQuantity: int, limitPrice: int, openOrders: seq<PublicKey>, marketIndex: int,
                              zeroKey: PublicKey, newAccount: PublicKey): (r: Result<PlacePlan>)
    ensures maxBaseQuantity <= 0 ==> r == Err(SIZE_TOO_SMALL)
    ensures maxBaseQuantity > 0 && limitPrice <= 0 ==> r == Err(INVALID_PRICE)
    ensures maxBaseQuantity > 0 && limitPrice > 0 && !(0 <= marketIndex < |openOrders|) ==> r == Err(MISSING_SLOT)
    ensures r.Ok? <==> maxBaseQuantity > 0 && limitPrice > 0 && 0 <= marketIndex < |openOrders|
    ensures r.Ok? ==>
              var slot := openOrders[marketIndex];
              && |r.value.openOrdersKeys| == |openOrders|
              && (PreSettle(slot) in r.value.instructions <==> slot != zeroKey)
              && (CreateOpenOrders(newAccount) in r.value.instructions <==> slot == zeroKey)
              && (|r.value.signers| > 0 <==> slot == zeroKey)
              && r.value.instructions[|r.value.instructions| - 1] == PlaceAndSettle(r.value.openOrdersKeys)
    ensures r.Ok? ==>
              var slot := openOrders[marketIndex];
              && r.value.openOrdersKeys == (if slot == zeroKey then openOrders[marketIndex := newAccount] else openOrders)
              && r.value.signers == (if slot == zeroKey then [newAccount] else [])
              && r.value.instructions == (if slot == zeroKey then [CreateOpenOrders(newAccount)] else [PreSettle(slot)])
                                         + [PlaceAndSettle(r.value.openOrdersKeys)]
  {
    if maxBaseQuantity <= 0 then Err(SIZE_TOO_SMALL)
    else if limitPrice <= 0 then Err(INVALID_PRICE)
    else if !(0 <= marketIndex < |openOrders|) then Err(MISSING_SLOT)
    else
      KeysDifferOnlyAtEmptySlot(openOrders, marketIndex, zeroKey, newAccount);
      var keys := OpenOrdersKeys(openOrders, marketIndex, zeroKey, newAccount);
      var slot := openOrders[marketIndex];
      var first := if slot == zeroKey then [CreateOpenOrders(newAccount)] else [PreSettle(keys[marketIndex])];
      Ok(PlacePlan(first + [PlaceAndSettle(keys)], keys, if slot == zeroKey then [newAccount] else []))
  }

  /** The rebuilt list differs from the margin account's list at most in the
      market's slot, and there only when that slot held the zero key, which
      the new account then replaces. */
  lemma KeysDifferOnlyAtEmptySlot(openOrders: seq<PublicKey>, marketIndex: int, zeroKey: PublicKey, newAccount: PublicKey)
    requires 0 <= marketIndex < |openOrders|
    ensures
      var keys := OpenOrdersKeys(openOrders, marketIndex, zeroKey, newAccount);
      && |keys| == |openOrders|
      && (forall i :: 0 <= i < |keys| && keys[i] != openOrders[i] ==> i == marketIndex && openOrders[i] == zeroKey)
      && (openOrders[marketIndex] != zeroKey ==> keys == openOrders)
      && (openOrders[marketIndex] == zeroKey ==> keys == openOrders[marketIndex := newAccount])
  {
    var keys := OpenOrdersKeys(openOrders, marketIndex, zeroKey, newAccount);
    if openOrders[marketIndex] == zeroKey {
      assert forall i :: 0 <= i < |keys| ==> keys[i] == openOrders[marketIndex := newAccount][i];
    } else {
      assert forall i :: 0 <= i < |keys| ==> keys[i] == openOrders[i];
    }
  }

  /** Once the slot is filled, rebuilding again changes nothing. */
  lemma RebuildIsIdempotent(openOrders: seq<PublicKey>, marketIndex: int, zeroKey: PublicKey, newAccount: PublicKey)
    requires 0 <= marketIndex < |openOrders|
    requires newAccount != zeroKey
    ensures
      var keys := OpenOrdersKeys(openOrders, marketIndex, zeroKey, newAccount);
      OpenOrdersKeys(keys, marketIndex, zeroKey, newAccount) == keys
  {
    var keys := OpenOrdersKeys(openOrders, marketIndex, zeroKey, newAccount);
    var again := OpenOrdersKeys(keys, marketIndex, zeroKey, newAccount);
    assert keys[marketIndex] != zeroKey;
    assert forall i :: 0 <= i < |keys| ==> again[i] == keys[i];
  }

  /** The pre-settle instruction settles into the existing account, which is
      the one the order is then placed against. */
  lemma PreSettleUsesExistingAccount(maxBaseQuantity: int, limitPrice: int, openOrders: seq<PublicKey>, marketIndex: int,
                                     zeroKey: PublicKey, newAccount: PublicKey)
    requires PlaceAndSettlePlan(maxBaseQuantity, limitPrice, openOrders, marketIndex, zeroKey, newAccount).Ok?
    requires openOrders[marketIndex] != zeroKey
    ensures
      var plan := PlaceAndSettlePlan(maxBaseQuantity, limitPrice, openOrders, marketIndex, zeroKey, newAccount).value;
      && plan.instructions == [PreSettle(openOrders[marketIndex]), PlaceAndSettle(openOrders)]
      && plan.signers == []
  {
    KeysDifferOnlyAtEmptySlot(openOrders, marketIndex, zeroKey, newAccount);
  }
}

=== FILE: settlement.dfy ===
/** Planning in `settleAll` and `settleAllTrades`: which markets get a
    SettleFunds instruction, how the free balances of those markets add up in
    `assetGains`, which tokens then get a SettleBorrow instruction, and the
    "No unsettled funds" refusal of an empty plan. BN amounts are read with
    `toNumber()` and are non-negative; the account lists of the instructions
    and the borrow quantity are not part of the plan. */
module Settlement {
  import opened Common

  const NO_UNSETTLED_FUNDS := "No unsettled funds"

  /** The free balances of one open-orders account. */
  datatype OpenOrdersAccount = OpenOrdersAccount(baseTokenFree: nat, quoteTokenFree: nat, referrerRebatesAccrued: nat)

  /** A planned instruction, identified by the market or token it settles. */
  datatype SettleInstruction = SettleFunds(market: nat) | SettleBorrow(token: nat)

  /** The planned instructions in transaction order, and the per-token gains. */
  datatype SettlePlan = SettlePlan(instructions: seq<SettleInstruction>, assetGains: seq<int>)

  /** The margin account's open-orders account of market `i`; absent past the end. */
  function OpenOrdersAt(accounts: seq<Option<OpenOrdersAccount>>, i: nat): Option<OpenOrdersAccount>
  {
    if i < |accounts| then accounts[i] else None
  }

  /** The free quote of an account: `settleAll` adds the referrer rebates to
      it, `settleAllTrades` does not. */
  function QuoteFree(acc: OpenOrdersAccount, countRebates: bool): nat
  {
    acc.quoteTokenFree + (if countRebates then acc.referrerRebatesAccrued else 0)
  }

  /** The market loop settles an account that exists and has some free base
      or quote. */
  predicate HasFunds(acc: Option<OpenOrdersAccount>, countRebates: bool)
  {
    acc.Some? && !(QuoteFree(acc.value, countRebates) == 0 && acc.value.baseTokenFree == 0)
  }

  /** The markets below `n` that get a SettleFunds instruction, in loop order. */
  function MarketsToSettle(accounts: seq<Option<OpenOrdersAccount>>, n: nat, countRebates: bool): (r: seq<nat>)
    ensures forall i: nat :: i in r <==> i < n && HasFunds(OpenOrdersAt(accounts, i), countRebates)
    ensures forall j, k :: 0 <= j < k < |r| ==> r[j] < r[k]
    ensures forall j :: 0 <= j < |r| ==> r[j] < n
  {
    if n == 0 then []
    else
      var prefix := MarketsToSettle(accounts, n - 1, countRebates);
      if HasFunds(OpenOrdersAt(accounts, n - 1), countRebates) then prefix + [n - 1] else prefix
  }

  /** The free quote summed over the settled markets below `n`. */
  function QuoteGains(accounts: seq<Option<OpenOrdersAccount>>, n: nat, countRebates: bool): nat
  {
    if n == 0 then 0
    else
      var acc := OpenOrdersAt(accounts, n - 1);
      QuoteGains(accounts, n - 1, countRebates) + (if HasFunds(acc, countRebates) then QuoteFree(acc.value, countRebates) else 0)
  }

  /** `assetGains` after the market loop has visited the markets below `n`:
      each settled market adds its free base to its own token and its free
      quote to the quote token, the last one. */
  function AccumulateGains(accounts: seq<Option<OpenOrdersAccount>>, n: nat, numTokens: nat, countRebates: bool): (g: seq<int>)
    requires n < numTokens
    ensures |g| == numTokens
    ensures forall i :: 0 <= i < n ==>
              g[i] == if HasFunds(OpenOrdersAt(accounts, i), countRebates) then OpenOrdersAt(accounts, i).value.baseTokenFree else 0
    ensures forall i :: n <= i < numTokens - 1 ==> g[i] == 0
    ensures g[numTokens - 1] == QuoteGains(accounts, n, countRebates)
  {
    if n == 0 then seq(numTokens, _ => 0)
    else
      var g := AccumulateGains(accounts, n - 1, numTokens, countRebates);
      var acc := OpenOrdersAt(accounts, n - 1);
      if HasFunds(acc, countRebates) then
        g[n - 1 := g[n - 1] + acc.value.baseTokenFree][numTokens - 1 := g[numTokens - 1] + QuoteFree(acc.value, countRebates)]
      else g
  }

  /** The token loop settles a borrow when the deposit plus gains and the
      liability are both nonzero. */
  predicate HasBorrowToSettle(deposits: seq<int>, liabs: seq<int>, gains: seq<int>, t: nat)
    requires t < |deposits| && t < |liabs| && t < |gains|
  {
    deposits[t] + gains[t] != 0 && liabs[t] != 0
  }

  /** The tokens below `n` that get a SettleBorrow instruction, in loop order. */
  function TokensToSettle(deposits: seq<int>, liabs: seq<int>, gains: seq<int>, n: nat): (r: seq<nat>)
    requires n <= |deposits| && n <= |liabs| && n <= |gains|
    ensures forall t: nat :: t in r <==> t < n && HasBorrowToSettle(deposits, liabs, gains, t)
    ensures forall j, k :: 0 <= j < k < |r| ==> r[j] < r[k]
    ensures forall j :: 0 <= j < |r| ==> r[j] < n
  {
    if n == 0 then []
    else
      var prefix := TokensToSettle(deposits, liabs, gains, n - 1);
      if HasBorrowToSettle(deposits, liabs, gains, n - 1) then prefix + [n - 1] else prefix
  }

  function FundsInstructions(markets: seq<nat>): (r: seq<SettleInstruction>)
    ensures |r| == |markets|
    ensures forall i :: 0 <= i < |r| ==> r[i] == SettleFunds(markets[i])
    ensures forall i: nat :: SettleFunds(i) in r <==> i in markets
    ensures forall x :: x in r ==> x.SettleFunds?
  {
    if markets == [] then [] else [SettleFunds(markets[0])] + FundsInstructions(markets[1..])
  }

  function BorrowInstructions(tokens: seq<nat>): (r: seq<SettleInstruction>)
    ensures |r| == |tokens|
    ensures forall i :: 0 <= i < |r| ==> r[i] == SettleBorrow(tokens[i])
    ensures forall t: nat :: SettleBorrow(t) in r <==> t in tokens
    ensures forall x :: x in r ==> x.SettleBorrow?
  {
    if tokens == [] then [] else [SettleBorrow(tokens[0])] + BorrowInstructions(tokens[1..])
  }

  /** Nothing for `settleAll` to do: no market has free funds, and no token
      has both a deposit and a liability. */
  ghost predicate NothingToSettle(accounts: seq<Option<OpenOrdersAccount>>, deposits: seq<int>, liabs: seq<int>, numMarkets: nat)
    requires |deposits| == numMarkets + 1 && |liabs| == numMarkets + 1
  {
    && (forall i :: 0 <= i < numMarkets ==> !HasFunds(OpenOrdersAt(accounts, i), true))
    && (forall t :: 0 <= t <= numMarkets ==> deposits[t] == 0 || liabs[t] == 0)
  }

  /** `assetGains` of `settleAll` once its market loop has run. */
  function SettleAllGains(accounts: seq<Option<OpenOrdersAccount>>, numMarkets: nat): (g: seq<int>)
    ensures |g| == numMarkets + 1
  {
    AccumulateGains(accounts, numMarkets, numMarkets + 1, true)
  }

  /** The instructions `settleAll` adds: SettleFunds for each market with
      free funds, then SettleBorrow for each token with a borrow to settle. */
  function SettleAllInstructions(accounts: seq<Option<OpenOrdersAccount>>, deposits: seq<int>, liabs: seq<int>,
                                 numMarkets: nat): (r: seq<SettleInstruction>)
    requires |deposits| == numMarkets + 1 && |liabs| == numMarkets + 1
    ensures forall i: nat :: SettleFunds(i) in r <==> i < numMarkets && HasFunds(OpenOrdersAt(accounts, i), true)
    ensures forall t: nat :: SettleBorrow(t) in r <==>
              t <= numMarkets && HasBorrowToSettle(deposits, liabs, SettleAllGains(accounts, numMarkets), t)
    ensures forall j, k :: 0 <= j < k < |r| ==> !(r[j].SettleBorrow? && r[k].SettleFunds?)
    ensures forall j, k :: 0 <= j < k < |r| && r[j].SettleFunds? && r[k].SettleFunds? ==> r[j].market < r[k].market
    ensures forall j, k :: 0 <= j < k < |r| && r[j].SettleBorrow? && r[k].SettleBorrow? ==> r[j].token < r[k].token
  {
    var funds := FundsInstructions(MarketsToSettle(accounts, numMarkets, true));
    var borrows := BorrowInstructions(TokensToSettle(deposits, liabs, SettleAllGains(accounts, numMarkets), numMarkets + 1));
    FundsBeforeBorrows(funds, borrows);
    funds + borrows
  }

  lemma NoMarketsIff(accounts: seq<Option<OpenOrdersAccount>>, n: nat, countRebates: bool)
    ensures MarketsToSettle(accounts, n, countRebates) == [] <==>
              forall i: nat :: i < n ==> !HasFunds(OpenOrdersAt(accounts, i), countRebates)
  {
    var r := MarketsToSettle(accounts, n, countRebates);
    if r != [] {
      assert r[0] in r;
    }
  }

  lemma NoTokensIff(deposits: seq<int>, liabs: seq<int>, gains: seq<int>, n: nat)
    requires n <= |deposits| && n <= |liabs| && n <= |gains|
    ensures TokensToSettle(deposits, liabs, gains, n) == [] <==>
              forall t: nat :: t < n ==> !HasBorrowToSettle(deposits, liabs, gains, t)
  {
    var r := TokensToSettle(deposits, liabs, gains, n);
    if r != [] {
      assert r[0] in r;
    }
  }

  /** `settleAll` plans nothing exactly when there is nothing to settle. */
  lemma EmptyPlanIffNothingToSettle(accounts: seq<Option<OpenOrdersAccount>>, deposits: seq<int>, liabs: seq<int>,
                                    numMarkets: nat)
    requires |deposits| == numMarkets + 1 && |liabs| == numMarkets + 1
    ensures SettleAllInstructions(accounts, deposits, liabs, numMarkets) == [] <==>
              NothingToSettle(accounts, deposits, liabs, numMarkets)
  {
    var gains := SettleAllGains(accounts, numMarkets);
    var markets := MarketsToSettle(accounts, numMarkets, true);
    var tokens := TokensToSettle(deposits, liabs, gains, numMarkets + 1);
    assert |SettleAllInstructions(accounts, deposits, liabs, numMarkets)| == |markets| + |tokens|;
    NoMarketsIff(accounts, numMarkets, true);
    NoTokensIff(deposits, liabs, gains, numMarkets + 1);
    NoFundsMeansNoGains(accounts, numMarkets, true, gains);
    if markets == [] {
      assert forall t: nat :: t <= numMarkets ==>
               (HasBorrowToSettle(deposits, liabs, gains, t) <==> deposits[t] != 0 && liabs[t] != 0);
    }
  }

  /** `settleAll` for a group of `numMarkets` markets and `numMarkets + 1`
      tokens (the last token is the quote currency). */
  function SettleAll(accounts: seq<Option<OpenOrdersAccount>>, deposits: seq<int>, liabs: seq<int>, numMarkets: nat)
    : (r: Result<SettlePlan>)
    requires |deposits| == numMarkets + 1 && |liabs| == numMarkets + 1
    ensures r.Err? ==> r.message == NO_UNSETTLED_FUNDS
    ensures r.Err? <==> NothingToSettle(accounts, deposits, liabs, numMarkets)
    ensures r.Ok? ==> r.value.assetGains == SettleAllGains(accounts, numMarkets)
    ensures r.Ok? ==> r.value.instructions == SettleAllInstructions(accounts, deposits, liabs, numMarkets)
  {
    var instructions := SettleAllInstructions(accounts, deposits, liabs, numMarkets);
    EmptyPlanIffNothingToSettle(accounts, deposits, liabs, numMarkets);
    if instructions == [] then Err(NO_UNSETTLED_FUNDS)
    else Ok(SettlePlan(instructions, SettleAllGains(accounts, numMarkets)))
  }

  /** With no market settled, every gain stays zero. */
  lemma NoFundsMeansNoGains(accounts: seq<Option<OpenOrdersAccount>>, numMarkets: nat, countRebates: bool, gains: seq<int>)
    requires gains == AccumulateGains(accounts, numMarkets, numMarkets + 1, countRebates)
    ensures (forall i :: 0 <= i < numMarkets ==> !HasFunds(OpenOrdersAt(accounts, i), countRebates)) ==>
              forall t :: 0 <= t < |gains| ==> gains[t] == 0
  {
    if forall i :: 0 <= i < numMarkets ==> !HasFunds(OpenOrdersAt(accounts, i), countRebates) {
      NoFundsNoQuoteGains(accounts, numMarkets, countRebates);
    }
  }

  lemma {:induction false} NoFundsNoQuoteGains(accounts: seq<Option<OpenOrdersAccount>>, n: nat, countRebates: bool)
    requires forall i :: 0 <= i < n ==> !HasFunds(OpenOrdersAt(accounts, i), countRebates)
    ensures QuoteGains(accounts, n, countRebates) == 0
  {
    if n > 0 {
      NoFundsNoQuoteGains(accounts, n - 1, countRebates);
    }
  }

  lemma FundsBeforeBorrows(funds: seq<SettleInstruction>, borrows: seq<SettleInstruction>)
    requires forall x :: x in funds ==> x.SettleFunds?
    requires forall x :: x in borrows ==> x.SettleBorrow?
    ensures forall j, k :: 0 <= j < k < |funds + borrows| ==>
              !((funds + borrows)[j].SettleBorrow? && (funds + borrows)[k].SettleFunds?)
  {
    forall j, k | 0 <= j < k < |funds + borrows|
      ensures !((funds + borrows)[j].SettleBorrow? && (funds + borrows)[k].SettleFunds?)
    {
      if j < |funds| {
        assert (funds + borrows)[j] == funds[j];
        assert funds[j] in funds;
      } else {
        assert (funds + borrows)[k] == borrows[k - |funds|];
        assert borrows[k - |funds|] in borrows;
      }
    }
  }

  /** `settleAllTrades`: the market loop alone, without the referrer rebates. */
  function SettleAllTrades(accounts: seq<Option<OpenOrdersAccount>>, numMarkets: nat): (r: Result<seq<SettleInstruction>>)
    ensures r.Err? ==> r.message == NO_UNSETTLED_FUNDS
    ensures r.Err? <==> forall i :: 0 <= i < numMarkets ==> !HasFunds(OpenOrdersAt(accounts, i), false)
    ensures r.Ok? ==> forall x :: x in r.value ==> x.SettleFunds?
    ensures r.Ok? ==> forall i: nat :: SettleFunds(i) in r.value <==>
                        i < numMarkets && HasFunds(OpenOrdersAt(accounts, i), false)
    ensures r.Ok? ==> forall j, k :: 0 <= j < k < |r.value| ==> r.value[j].market < r.value[k].market
  {
    var markets := MarketsToSettle(accounts, numMarkets, false);
    var instructions := FundsInstructions(markets);
    if instructions == [] then
      Err(NO_UNSETTLED_FUNDS)
    else
      assert markets[0] in markets;
      Ok(instructions)
  }

  /** Counting the rebates can only add markets: every market that
      `settleAllTrades` settles, `settleAll` settles too, and when
      `settleAllTrades` has something to do, so does `settleAll`. */
  lemma SettleAllCoversSettleAllTrades(accounts: seq<Option<OpenOrdersAccount>>, deposits: seq<int>, liabs: seq<int>,
                                       numMarkets: nat)
    requires |deposits| == numMarkets + 1 && |liabs| == numMarkets + 1
    requires SettleAllTrades(accounts, numMarkets).Ok?
    ensures SettleAll(accounts, deposits, liabs, numMarkets).Ok?
    ensures forall i: nat :: SettleFunds(i) in SettleAllTrades(accounts, numMarkets).value ==>
              SettleFunds(i) in SettleAll(accounts, deposits, liabs, numMarkets).value.instructions
  {
    var i :| 0 <= i < numMarkets && HasFunds(OpenOrdersAt(accounts, i), false);
    assert HasFunds(OpenOrdersAt(accounts, i), true);
  }
}

=== FILE: signing.dfy ===
/** `signTransaction` and `signTransactions`: stamp a recent blockhash, declare
    the signers (the wallet first, then the extra keypairs in call order),
    partially sign with the extra keypairs when there are any, and hand the
    result to the wallet. The wallet's own signing is external. The model
    yields the transaction as it is handed over. */
module Signing {
  import opened Common

  /** A locally held keypair (`Account`); its secret is not modelled. */
  datatype Keypair = Keypair(publicKey: PublicKey)

  /** The parts of a `Transaction` that signing touches. `partialSigners`
      holds the keys whose signatures were added locally; declaring the
      signers clears it, and it stays absent unless `partialSign` is called. */
  datatype Transaction = Transaction(
    instructions: seq<Instruction>,
    recentBlockhash: Option<string>,
    signers: seq<PublicKey>,
    partialSigners: Option<seq<PublicKey>>)

  /** One element of the batch: a transaction and its optional extra signers. */
  datatype TransactionAndSigners = TransactionAndSigners(transaction: Transaction, signers: Option<seq<Keypair>>)

  /** The public keys of the extra signers, in order. */
  function PublicKeys(keypairs: seq<Keypair>): seq<PublicKey>
  {
    seq(|keypairs|, i requires 0 <= i < |keypairs| => keypairs[i].publicKey)
  }

  /** The transaction `signTransaction` hands to the wallet, given the
      blockhash the network returned. */
  function SignTransaction(tx: Transaction, wallet: PublicKey, signers: seq<Keypair>, blockhash: string): (r: Transaction)
    ensures r.instructions == tx.instructions
    ensures r.recentBlockhash == Some(blockhash)
    ensures |r.signers| == 1 + |signers| && r.signers[0] == wallet
    ensures forall i :: 0 <= i < |signers| ==> r.signers[i + 1] == signers[i].publicKey
    ensures r.partialSigners.Some? <==> |signers| > 0
    ensures r.partialSigners.Some? ==> r.partialSigners.value == r.signers[1..]
  {
    var declared := [wallet] + PublicKeys(signers);
    var signed := tx.(recentBlockhash := Some(blockhash), signers := declared, partialSigners := None);
    if |signers| > 0 then signed.(partialSigners := Some(PublicKeys(signers))) else signed
  }

  /** An omitted signer list counts as the empty list. */
  function SignersOrEmpty(signers: Option<seq<Keypair>>): seq<Keypair>
  {
    if signers.Some? then signers.value else []
  }

  /** The batch handed to `signAllTransactions`: one blockhash, fetched once,
      stamped on every transaction, each one otherwise prepared exactly as
      `signTransaction` prepares it. */
  method SignTransactions(batch: seq<TransactionAndSigners>, wallet: PublicKey, blockhash: string)
    returns (r: seq<Transaction>)
    ensures |r| == |batch|
    ensures forall i :: 0 <= i < |batch| ==>
              r[i] == SignTransaction(batch[i].transaction, wallet, SignersOrEmpty(batch[i].signers), blockhash)
    ensures forall i :: 0 <= i < |r| ==> r[i].recentBlockhash == Some(blockhash)
  {
    r := [];
    var k := 0;
    while k < |batch|
      invariant k <= |batch| && |r| == k
      invariant forall i :: 0 <= i < k ==>
                  r[i] == SignTransaction(batch[i].transaction, wallet, SignersOrEmpty(batch[i].signers), blockhash)
    {
      var prepared := SignTransaction(batch[k].transaction, wallet, SignersOrEmpty(batch[k].signers), blockhash);
      r := r + [prepared];
      k := k + 1;
    }
  }
}
